=== FILE: README.md ===
# MQTT client node and HTTP default parser, modelled in Dafny

This project models two pieces of a Rust networking stack.

**The MQTT client node** (`mqtt_tmp/src/client.rs`). The node is modelled as an immutable `Client.State` record. It holds:
- an optional transport (socket and stream);
- the connect and close callbacks;
- two 16-bit packet-identifier counters;
- one map of pending completions, whose keys tell subscribes (odd) from unsubscribes (even);
- the exact-name and wildcard topic-handler maps;
- a first-write-wins attribute map;
- the queue of actions deferred until a transport exists;
- the keep-alive interval.

Every public operation is a pure transition on that record. Closures become opaque tokens. Transport work becomes a tagged `Client.Action`. Two traces record observable effects:
- `sent` holds the actions executed against the transport, in order;
- `armed` holds each request to arm the keep-alive timer.

Inbound packets (`ClientRecv`) return a `Reaction`. It carries the next state, the completion callback fired (if any) and the set of topic-handler deliveries.

The client relies on a topic-path parser from another crate that is not part of this model. `Topic` stands in for it with the level rules of section 4.7 of MQTT 3.1.1 (the exceptions are listed under "Left out"). Levels are separated by `/`, `+` matches one level, and `#` matches all remaining levels and may only come last.

**The HTTP default parser middleware** (`http/src/default_parser.rs`), in `DefaultParser`. It covers:
- the compression-level choice made by `with`;
- the Accept-Encoding negotiation and compression of response bodies;
- the Content-Length default;
- on requests, the charset check and the Content-Type dispatch into the parameter table.

MIME, query, form and JSON parsing, and the compressors, are foreign code. Their results come in as parameters.

Supporting modules:
- `Prelude`: `Option`, `Result`, and 16-bit arithmetic with explicit wrap-around.
- `Text`: split and join on a separator, ASCII trimming, and decimal rendering of numbers.

## Model

| member | source | states |
|---|---|---|
| Client.New | mqtt_tmp/src/client.rs:51-70 | a fresh node has no transport, empty maps and queue, counters at zero, and satisfies the node invariant |
| Prelude.Next16 | mqtt_tmp/src/client.rs:179-183 | the counter step adds one below the largest 16-bit value and returns to 0 exactly after it, agreeing with addition modulo 65536 |
| Client.KeepAliveArm | mqtt_tmp/src/client.rs:83-91 | the keep-alive timer is armed once with the stored interval when that interval is positive, and not at all when it is 0 |
| Client.HandleSlot | mqtt_tmp/src/client.rs:479-499 | unattached, the action joins the queue tail and nothing is sent; attached, it is sent at once and the keep-alive timer is armed only when the interval is positive; either way it is issued after everything issued before, and the invariant is kept |
| Client.Attach | mqtt_tmp/src/client.rs:115-125 | installing a transport keeps the issued sequence, empties the queue, installs the transport, does not arm the timer, changes no other field, and keeps the invariant |
| Client.SetStream | mqtt_tmp/src/client.rs:115-125 | popping the queue front to back and executing each action ends in exactly the state `Attach` describes |
| Client.Connect | mqtt_tmp/src/client.rs:127-146 | callbacks and keep-alive are stored, a CONNECT with the same interval and will is dispatched, and pending map, counters, handlers and attributes are untouched |
| Client.ContainsWildcards | mqtt_tmp/src/client.rs:501-509 | succeeds exactly on names that parse, with their wildcard flag; otherwise reports the name as invalid |
| Client.CheckTopic | mqtt_tmp/src/client.rs:159-174 | a topic passes exactly when it parses and is bound in the map its wildcard flag selects; the error says which of the two failed |
| Client.CheckTopics | mqtt_tmp/src/client.rs:159-175 | the list passes iff every topic has a handler, and otherwise the first failing topic's error is reported |
| Client.SubKey | mqtt_tmp/src/client.rs:178 | the subscribe key is a 16-bit value, always odd, and exactly `2 * id + 1` for identifiers below 32768 |
| Client.UnsubKey | mqtt_tmp/src/client.rs:223 | the unsubscribe key is a 16-bit value, always even, and exactly `2 * id` for identifiers below 32768 |
| Client.Subscribe | mqtt_tmp/src/client.rs:148-192 | fails iff some topic lacks a handler (first offender decides the error, nothing changes); on success the callback is stored at the odd key of the current counter, only the subscribe counter advances with 65535 wrapping to 0, and the caller's topics and QoS are dispatched |
| Client.Unsubscribe | mqtt_tmp/src/client.rs:194-237 | the mirror of subscribe with the even key and the unsubscribe counter |
| Client.Disconnect | mqtt_tmp/src/client.rs:239-257 | callbacks, counters, pending map, attributes, handler maps and queue are cleared while transport and keep-alive stay; attached, a DISCONNECT is sent; unattached, it is discarded with the queue |
| Client.Publish | mqtt_tmp/src/client.rs:259-277 | an unparseable topic is an invalid topic, a wildcard topic an invalid publish topic; otherwise a PUBLISH at QoS 0 with the caller's retain flag, topic and payload is dispatched and nothing else changes |
| Client.SetTopicHandler | mqtt_tmp/src/client.rs:279-311 | a parseable name is bound, replacing any earlier binding, in the wildcard map iff its filter has wildcards, leaving the other map alone; an unparseable name is refused |
| Client.RemoveTopicHandler | mqtt_tmp/src/client.rs:313-335 | a parseable name is unbound from the map its flag selects, afterwards it has no handler; an unparseable name is refused |
| Client.AddAttribute | mqtt_tmp/src/client.rs:337-343 | a value is stored only under a name not yet present; every other name keeps its value |
| Client.RemoveAttribute | mqtt_tmp/src/client.rs:345-348 | the name is absent afterwards and every other name keeps its value |
| Client.GetAttribute | mqtt_tmp/src/client.rs:350-356 | returns the stored value exactly when the name is present |
| ClientRecv.ConnackStatus | mqtt_tmp/src/client.rs:412-434 | only `Accepted` is success; every refusal carries its return code |
| ClientRecv.RecvConnack | mqtt_tmp/src/client.rs:410-439 | the connect callback is taken out of the state and fired iff there was one, with success iff the code is `Accepted` and otherwise the refusal carrying that very return code |
| ClientRecv.SubackKey | mqtt_tmp/src/client.rs:441-444 | the key a SUBACK looks up, computed in 16 bits, is the key the matching subscribe stored under |
| ClientRecv.UnsubackKey | mqtt_tmp/src/client.rs:450-452 | the key an UNSUBACK looks up is the key the matching unsubscribe stored under |
| ClientRecv.Resolve | mqtt_tmp/src/client.rs:445-447 | the entry is removed, its callback fires with success only when the entry exists and holds one, and an unknown key changes nothing |
| ClientRecv.RecvSuback | mqtt_tmp/src/client.rs:441-448 | only the odd key of the identifier leaves the pending map; the callback fires iff it was present and set |
| ClientRecv.RecvUnsuback | mqtt_tmp/src/client.rs:450-456 | only the even key of the identifier leaves the pending map; the callback fires iff it was present and set |
| ClientRecv.PatternDeliveries | mqtt_tmp/src/client.rs:472-476 | exactly the wildcard registrations whose filter matches the topic receive the payload, each with its own handler |
| ClientRecv.RecvPublish | mqtt_tmp/src/client.rs:458-477 | an unparseable topic reaches no handler; otherwise the exact-name handler (if any) and every matching pattern handler receive the payload once, and the state is unchanged |
| ClientRecv.HandleRecv | mqtt_tmp/src/client.rs:377-392 | each packet goes to its handler, receive errors and PINGRESP do nothing, the invariant holds after, and transport, queue and sent trace are untouched |
| ClientLemmas.HandlerLookupIsMembership | mqtt_tmp/src/client.rs:161-167 | in a valid node, looking a name up in the map its flag selects is the same as finding it in either map |
| ClientLemmas.HandlerMapsDisjoint | mqtt_tmp/src/client.rs:296-301 | no name is bound in both handler maps |
| ClientLemmas.KeysNeverCollide | mqtt_tmp/src/client.rs:178 | a subscribe key never equals an unsubscribe key, whatever the counters |
| ClientLemmas.KeysAliasAcrossHalf | mqtt_tmp/src/client.rs:223 | identifiers 32768 apart share a key in both directions, so a later request can overwrite a pending one |
| ClientLemmas.KeysDistinctBelowHalf | mqtt_tmp/src/client.rs:177-178 | below 32768, distinct identifiers have distinct keys |
| ClientLemmas.SubscribeThenSuback | mqtt_tmp/src/client.rs:441-447 | a SUBACK with the identifier a subscribe used fires that subscribe's callback once with success and forgets it; a repeat fires nothing |
| ClientLemmas.UnsubscribeThenUnsuback | mqtt_tmp/src/client.rs:450-456 | the same round trip for unsubscribe and UNSUBACK |
| ClientLemmas.AcksKeepTheOtherDirection | mqtt_tmp/src/client.rs:444-453 | a SUBACK never removes a pending unsubscribe, nor an UNSUBACK a pending subscribe |
| ClientLemmas.ConsecutiveSubscribesDiffer | mqtt_tmp/src/client.rs:177-183 | two successful subscribes in a row use different identifiers and leave the unsubscribe counter alone |
| ClientLemmas.ConnackFiresOnce | mqtt_tmp/src/client.rs:436-438 | a second CONNACK finds no connect callback |
| ClientLemmas.SlotAllIssuesInOrder | mqtt_tmp/src/client.rs:479-495 | a run of actions through the slot is issued in call order and keeps the invariant |
| ClientLemmas.ReplayInOrder | mqtt_tmp/src/client.rs:118-121 | actions submitted before a transport exists are sent in submission order when it arrives, and nothing stays queued |
| ClientLemmas.DisconnectThenAttach | mqtt_tmp/src/client.rs:246-255 | after disconnect and a new transport there are no handlers, attributes, pending entries or callbacks, and both counters are 0 |
| ClientLemmas.DisconnectDiscardsQueue | mqtt_tmp/src/client.rs:239-255 | an unattached disconnect discards everything queued, its own DISCONNECT included |
| ClientLemmas.DisconnectIdempotentUnattached | mqtt_tmp/src/client.rs:239-257 | disconnecting twice while unattached equals disconnecting once |
| ClientLemmas.FirstWriteWins | mqtt_tmp/src/client.rs:337-343 | a second value added under a name never replaces the first |
| ClientLemmas.RemoveThenAdd | mqtt_tmp/src/client.rs:337-348 | after a removal the name reads as absent and the next add is stored |
| ClientLemmas.SetThenRemoveHandler | mqtt_tmp/src/client.rs:279-335 | removing a handler just set for a fresh name restores the node |
| ClientLemmas.PublishIgnoresQoS | mqtt_tmp/src/client.rs:259-273 | the requested QoS has no effect on publish |
| ClientLemmas.PublishIsUniformMatch | mqtt_tmp/src/client.rs:466-476 | in a valid node the registrations reached by a publish are exactly those whose filter matches the topic, each with its own handler |
| ClientLemmas.ExactHandlerDelivery | mqtt_tmp/src/client.rs:466-470 | a handler set for a plain name is reached by a publish to that name and by no publish to another name |
| ClientLemmas.SubscribeUnknownTopic | mqtt_tmp/src/client.rs:167-174 | subscribing, in any state, to a well-formed topic that has no handler fails with that topic named |
| Topic.ParseLevel | mqtt_tmp/src/client.rs:286 | a level parses back to its own text and, without separators, is well formed |
| Topic.ParseLevels | mqtt_tmp/src/client.rs:286 | a path parses iff each level does, level by level |
| Topic.Parse | mqtt_tmp/src/client.rs:286-294 | a parsed name is a well-formed filter that renders back to the name |
| Topic.ParseRender | mqtt_tmp/src/client.rs:286-294 | every well-formed filter, written out, parses back to itself |
| Topic.MatchLevelsIsSpec | mqtt_tmp/src/client.rs:473 | level-by-level matching agrees with the standard's description of `+` and a final `#` |
| Topic.PlainMatchIsEquality | mqtt_tmp/src/client.rs:468 | without wildcards, matching is equality of levels |
| Topic.PlainFilterMatchesOnlyItsName | mqtt_tmp/src/client.rs:466-473 | a plain filter matches exactly the topic it was parsed from, so the verbatim lookup is a special case of matching |
| Text.Split | http/src/default_parser.rs:120-121 | splitting yields separator-free parts that join back to the input |
| Text.SplitJoin | http/src/default_parser.rs:120-121 | joining separator-free parts and splitting again gives the parts back |
| Text.Trim | http/src/default_parser.rs:120-122 | the trimmed text is no longer than the input, has no white space at either end, and text already free of it at both ends is returned unchanged |
| Text.TrimIsSlice | http/src/default_parser.rs:120-122 | the trimmed text is a slice of the input, and everything cut off before and after it is white space |
| Text.NatToDecimal | http/src/default_parser.rs:223 | the decimal rendering is non-empty digits without a leading zero whose value is the number |
| DefaultParser.SelectLevel | http/src/default_parser.rs:240-253 | absent or zero selects fast, 1 to 9 selects that level, above 9 selects best |
| DefaultParser.SelectLevelMonotoneAndStable | http/src/default_parser.rs:240-253 | a larger request never selects a lower level, and a selected level selects itself again |
| DefaultParser.With | http/src/default_parser.rs:236-263 | the parser keeps the plain limit; no level or 0 gives the fast level, 1 to 9 are kept, anything above 9 gives the best level |
| DefaultParser.Recognise | http/src/default_parser.rs:122-123 | exactly the tokens `deflate` and `gzip` are recognised, each as itself |
| DefaultParser.Element | http/src/default_parser.rs:120-122 | an element reduces to a token without `;` and without surrounding white space; an element without `;` is just trimmed |
| DefaultParser.Tokens | http/src/default_parser.rs:119-122 | the header yields at least one token, since splitting on `,` always gives at least one element |
| DefaultParser.TokensOfList | http/src/default_parser.rs:119-122 | a header joined from comma-free elements yields exactly one token per element, in order, each reduced as an element is |
| DefaultParser.PlainListIsTrimmed | http/src/default_parser.rs:119-122 | a list of codings without parameters, such as `gzip, deflate`, yields the trimmed elements in order |
| DefaultParser.Chosen | http/src/default_parser.rs:122-211 | no coding iff no token is recognised, otherwise the coding of the first recognised token |
| DefaultParser.QValuesIgnored | http/src/default_parser.rs:121-122 | parameters after `;`, q-values included, never change the token an element names |
| DefaultParser.Encoded | http/src/default_parser.rs:147-150 | after an encode the body is the coded bytes, Content-Encoding names the coding, Content-Length is the decimal text of the coded length, and other headers stay |
| DefaultParser.EncodeWith | http/src/default_parser.rs:125-129 | whatever a coding arm does, a continued response keeps a body |
| DefaultParser.Negotiate | http/src/default_parser.rs:118-214 | whatever the scan does, a continued response keeps a body |
| DefaultParser.NegotiateUsesFirstRecognised | http/src/default_parser.rs:120-211 | the scan does exactly what the first recognised token's arm does, and nothing when none is recognised |
| DefaultParser.LaterTokensIgnored | http/src/default_parser.rs:177-178 | once a recognised token has been seen, tokens after it never matter |
| DefaultParser.DefaultLength | http/src/default_parser.rs:219-227 | Content-Length is added only when absent, as the decimal text of the known body length or as "0" for an unknown length, and an existing value or other header is never changed |
| DefaultParser.Respond | http/src/default_parser.rs:113-228 | a body-less response passes unchanged, and any continued response with a body carries a Content-Length |
| DefaultParser.RespondSpec | http/src/default_parser.rs:113-228 | the first recognised coding is applied to a sized, large enough, sliced body; an encoder failure throws; otherwise only the Content-Length default applies |
| DefaultParser.SmallBodiesStayPlain | http/src/default_parser.rs:183-186 | a body of unknown length or below the limit is never encoded |
| DefaultParser.InsertAll | http/src/default_parser.rs:54-56 | inserting pairs in order keeps the last value for each key and every key not mentioned |
| DefaultParser.StrPairs | http/src/default_parser.rs:55 | each text pair becomes a string parameter under the same key |
| DefaultParser.BodyParams | http/src/default_parser.rs:72-98 | form bodies give their pairs, valid JSON its text under "", octet streams their bytes under "", text its lossy decoding under "", any other application subtype, any other type, or no body nothing |
| DefaultParser.Request | http/src/default_parser.rs:54-104 | a charset other than UTF-8 gives 415 with only the query pairs stored; otherwise the request continues with exactly the query pairs inserted and then the body's parameters |
| DefaultParser.RejectionIgnoresBody | http/src/default_parser.rs:62-69 | a refused request comes out the same whatever its body |
| DefaultParser.WholeBodyUnderEmptyKey | http/src/default_parser.rs:79-97 | an accepted request stores a valid JSON body's text, an octet stream's bytes, or a text body's lossy decoding under the empty key, over any query value there |
| DefaultParser.InvalidJsonAddsNothing | http/src/default_parser.rs:79-87 | a JSON body that does not parse adds nothing beyond the query pairs |
| DefaultParser.FormPairsInserted | http/src/default_parser.rs:72-78 | the last value of each form field lands in the table, over any query value |

## Left out

- The keep-alive timer. `ping` and `get_timers` schedule a self-rescheduling PINGREQ on an external timer service. Only the arming request is kept, as the `armed` trace with its "interval above zero" guard.
- The receive loop. `handle_connect` and `handle_recv` re-register themselves with the packet reader; the model keeps one step per packet. A packet type a client should never receive makes the source panic. `ClientRecv.HandleRecv` excludes it by precondition.
- ClientRecv.RecvPublish and ClientRecv.HandleRecv: they require a transport whenever a PUBLISH topic parses. With no socket, the source's `node.socket.clone().unwrap()` (mqtt_tmp/src/client.rs:467) panics. The source never reaches that state. `set_stream` holds the node mutex from mqtt_tmp/src/client.rs:116 until it stores the socket at :123, `recv_publish` takes the same mutex at :459, and `disconnect` never clears `socket`. So no PUBLISH handler can see a missing socket.
- An Accept-Encoding value that is not visible ASCII. The source's `to_str()` fails (http/src/default_parser.rs:119) and it skips negotiation. The model receives such a header as `None`.
- The packet encoders behind `util::send_*` and the MQTT codec. Sending is recorded as an `Action` in the `sent` trace.
- The topic-path type of the external MQTT crate. `Topic` replaces it with the filter rules of section 4.7 of MQTT 3.1.1. The `$`-prefixed topic rule, the ban on U+0000 in names and filters (section 4.7.3), and the length limits are not modelled, so a name containing NUL parses here.
- The mutex, shared ownership and the `Send`/`Sync` declarations. The model is sequential, one operation per critical section.
- `get_socket` and the socket and stream values themselves. They are opaque tokens.
- Closure invocation. Callbacks and handlers are opaque tokens. A fired callback or delivered payload is returned as part of a `Reaction`, not run.
- The close callback. The node stores it and clears it but never invokes it, and so does the model.
- The order in which wildcard handlers are called on a publish. The source iterates a hash map, so deliveries form a set.
- ClientRecv.RecvPublish: the source calls the exact-name handler before every pattern handler (mqtt_tmp/src/client.rs:468-476). The model's deliveries form one unordered set, so that order is not stated.
- DefaultParser.Tokens: its own contract only says there is at least one token; what the tokens are is stated by `DefaultParser.TokensOfList` and `DefaultParser.PlainListIsTrimmed`.
- The return codes carried by SUBACK. The source ignores them, and so does the model.
- Client.SubKey: the source computes `2 * id + 1` in `u16`, which panics in a debug build once the counter passes 32767; the model takes the release-build wrap-around.
- Client.UnsubKey: the same `u16` wrap-around as the subscribe key, for `2 * id`.
- Client.Subscribe: a failed subscribe returns an error and no new state, so "nothing changed" holds because the caller keeps its old state.
- DefaultParser.EncodeWith: its own contract only says a continued response keeps its body; what each coding arm does is stated by `DefaultParser.RespondSpec`.
- DefaultParser.Negotiate: its own contract only says a continued response keeps its body; the scan's behaviour is stated by `DefaultParser.NegotiateUsesFirstRecognised`.
- The deflate and gzip compressors, the encoder pool and the output-buffer retry of `encode_deflate`. A `Compressor` parameter returns the coded bytes or nothing.
- The pool-disconnected error of the deflate arm. The parser owns both ends of the channel, so it cannot occur.
- The encoder reset and its return to the pool. After a reset, the deflate total-output counter is the coded length the model uses.
- MIME, URL-query, form-urlencoded and JSON parsing, and lossy UTF-8 decoding. Their results are inputs (`Mime`, the query pairs, `Decoders`). An unreadable or unparseable Content-Type is an absent `Mime`.
- Header names. They are lower-case map keys; setting a header replaces its value.
- Text trimming. It treats ASCII white space only, where Rust's `trim` also removes other Unicode white space.
- The websocket and network plumbing in `net/src/api.rs`, the integration tests, and the clock in `mqtt_tmp/src/lib.rs`. They are I/O and not part of this model.

=== FILE: client.dfy ===
/** The MQTT client node: its state record and the public operations that
    applications call (`connect`, `subscribe`, `unsubscribe`, `publish`,
    `disconnect`, the topic-handler and attribute operations) plus
    `set_stream`, which the transport layer calls once a socket is ready.

    The state is an immutable value and each operation a transition on it;
    the mutex around the real node is gone because every operation is one
    sequential critical section. Closures become tokens: a `Callback` or a
    `Handler` names the closure the caller supplied, and a deferred unit
    of transport work is a tagged `Action`. `sent` records, in order, the
    actions that were executed against a transport, and `armed` records
    each request to arm the keep-alive timer. */
module Client {
  import opened Prelude
  import opened Topic

  /** A completion callback (`ClientCallback`) supplied by the caller. */
  type Callback = nat

  /** A topic handler closure supplied to `set_topic_handler`. */
  type Handler = nat

  /** The socket/stream pair that `set_stream` installs. */
  datatype Transport = Transport(socket: nat, stream: nat)

  datatype QoS = AtMostOnce | AtLeastOnce | ExactlyOnce

  datatype LastWill = LastWill(topic: string, message: string, qos: QoS, retain: bool)

  /** One unit of transport work: the packet it sends. */
  datatype Action =
    | SendConnect(keepAlive: U16, will: Option<LastWill>)
    | SendSubscribe(pid: U16, topics: seq<(string, QoS)>)
    | SendUnsubscribe(pid: U16, names: seq<string>)
    | SendPublish(retain: bool, qos: QoS, topic: string, payload: Bytes)
    | SendDisconnect

  /** A registered topic handler with the filter its name parsed to. */
  datatype TopicData = TopicData(filter: Filter, handler: Handler)

  datatype State = State(
    transport: Option<Transport>,
    connectCb: Option<Callback>,
    closeCb: Option<Callback>,
    nextSubId: U16,
    nextUnsubId: U16,
    /** Pending completions: odd keys for subscribes, even for unsubscribes. */
    pending: map<nat, Option<Callback>>,
    attributes: map<string, Bytes>,
    /** Handlers for names without wildcards. */
    topics: map<string, TopicData>,
    /** Handlers for names with wildcards. */
    patterns: map<string, TopicData>,
    /** Actions deferred until a transport exists, oldest first. */
    queue: seq<Action>,
    keepAlive: U16,
    sent: seq<Action>,
    armed: seq<U16>)

  datatype ClientError =
    | InvalidTopic(name: string)
    | NoHandler(name: string)
    | InvalidPublishTopic

  /** Every action the client has issued and not discarded, in issue order:
      those already executed followed by those still queued. */
  function Issued(s: State): seq<Action>
  {
    s.sent + s.queue
  }

  /** The invariant the operations maintain: nothing waits in the queue
      once a transport is attached; each handler sits in the map its
      name's wildcard flag selects, under the filter that name parses to;
      correlation keys are 16-bit values. */
  predicate Valid(s: State)
  {
    && (s.transport.Some? ==> s.queue == [])
    && (forall n :: n in s.topics ==>
          Parse(n) == Some(s.topics[n].filter) && !HasWildcards(s.topics[n].filter))
    && (forall n :: n in s.patterns ==>
          Parse(n) == Some(s.patterns[n].filter) && HasWildcards(s.patterns[n].filter))
    && (forall k :: k in s.pending ==> k < U16_MODULUS)
  }

  /** The parts of the state that only `connect`, `disconnect` and the
      handler and attribute operations change. */
  predicate SameSetup(s: State, s': State)
  {
    && s'.transport == s.transport
    && s'.connectCb == s.connectCb
    && s'.closeCb == s.closeCb
    && s'.attributes == s.attributes
    && s'.topics == s.topics
    && s'.patterns == s.patterns
    && s'.keepAlive == s.keepAlive
  }

  /** The keep-alive arming that `ping` requests: none when the interval
      is zero. */
  function KeepAliveArm(keepAlive: U16): (r: seq<U16>)
    ensures |r| <= 1
    ensures r != [] <==> keepAlive > 0
    ensures forall i :: 0 <= i < |r| ==> r[i] == keepAlive
  {
    if keepAlive > 0 then [keepAlive] else []
  }

  /** `s'` is `s` after `a` went through `handle_slot`: deferred to the
      queue tail while unattached, executed (and the keep-alive timer
      armed) while attached. */
  predicate Dispatched(s: State, s': State, a: Action)
  {
    if s.transport.None? then
      s'.queue == s.queue + [a] && s'.sent == s.sent && s'.armed == s.armed
    else
      s'.queue == s.queue && s'.sent == s.sent + [a] && s'.armed == s.armed + KeepAliveArm(s.keepAlive)
  }

  /** `ClientNode::new`: no transport, no callbacks, counters at zero and
      every map and queue empty. */
  function New(): (s: State)
    ensures Valid(s) && s.transport.None? && Issued(s) == []
    ensures s.pending == map[] && s.topics == map[] && s.patterns == map[] && s.attributes == map[]
    ensures s.nextSubId == 0 && s.nextUnsubId == 0 && s.keepAlive == 0
    ensures s.connectCb.None? && s.closeCb.None? && s.armed == []
  {
    State(None, None, None, 0, 0, map[], map[], map[], map[], [], 0, [], [])
  }

  /** `handle_slot`: without a transport the action joins the tail of the
      queue and nothing is sent; with one it is executed at once and the
      keep-alive timer is armed when the interval is positive. Either way
      it is issued after everything issued before it. */
  function HandleSlot(s: State, a: Action): (r: State)
    ensures Dispatched(s, r, a)
    ensures Valid(s) ==> Issued(r) == Issued(s) + [a]
    ensures r == s.(sent := r.sent, queue := r.queue, armed := r.armed)
    ensures Valid(s) ==> Valid(r)
  {
    if s.transport.None? then s.(queue := s.queue + [a])
    else s.(sent := s.sent + [a], armed := s.armed + KeepAliveArm(s.keepAlive))
  }

  /** What `set_stream` does to the state: every queued action is executed
      against the new transport in FIFO order, the queue is left empty and
      the transport installed. The keep-alive timer is not armed. */
  function Attach(s: State, t: Transport): (r: State)
    ensures Issued(r) == Issued(s)
    ensures r.queue == [] && r.transport == Some(t)
    ensures r.armed == s.armed
    ensures r == s.(transport := r.transport, sent := r.sent, queue := r.queue)
    ensures Valid(s) ==> Valid(r)
  {
    s.(transport := Some(t), sent := s.sent + s.queue, queue := [])
  }

  /** `set_stream`: pops the queue front to back, executing each action,
      then installs the transport. */
  method SetStream(s: State, t: Transport) returns (r: State)
    ensures r == Attach(s, t)
  {
    var node := s;
    while node.queue != []
      invariant node.sent + node.queue == s.sent + s.queue
      invariant node == s.(sent := node.sent, queue := node.queue)
      decreases |node.queue|
    {
      var action := node.queue[0];
      node := node.(queue := node.queue[1..], sent := node.sent + [action]);
    }
    r := node.(transport := Some(t));
  }

  /** `connect`: stores both callbacks and the keep-alive interval, then
      hands a CONNECT carrying the same interval and will to
      `handle_slot`. When attached, the timer is armed with the new
      interval. */
  function Connect(s: State, keepAlive: U16, will: Option<LastWill>,
                   closeCb: Option<Callback>, connectCb: Option<Callback>): (r: State)
    ensures r.keepAlive == keepAlive && r.closeCb == closeCb && r.connectCb == connectCb
    ensures Dispatched(s.(keepAlive := keepAlive), r, SendConnect(keepAlive, will))
    ensures r.transport == s.transport && r.pending == s.pending
    ensures r.nextSubId == s.nextSubId && r.nextUnsubId == s.nextUnsubId
    ensures r.attributes == s.attributes && r.topics == s.topics && r.patterns == s.patterns
    ensures Valid(s) ==> Valid(r)
  {
    var configured := s.(closeCb := closeCb, connectCb := connectCb, keepAlive := keepAlive);
    HandleSlot(configured, SendConnect(keepAlive, will))
  }

  /** `is_topic_contains_wildcards`: the wildcard flag of a name that
      parses, `InvalidTopic` for one that does not. */
  function ContainsWildcards(name: string): (r: Result<bool, ClientError>)
    ensures r.Ok? <==> Parse(name).Some?
    ensures r.Ok? ==> r.value == HasWildcards(Parse(name).value)
    ensures r.Err? ==> r.error == InvalidTopic(name)
  {
    match Parse(name)
    case None => Err(InvalidTopic(name))
    case Some(f) => Ok(HasWildcards(f))
  }

  /** A name has a handler when it parses and sits in the map its wildcard
      flag selects. */
  predicate HasHandler(s: State, name: string)
  {
    match Parse(name)
    case None => false
    case Some(f) => if HasWildcards(f) then name in s.patterns else name in s.topics
  }

  /** The check `subscribe` and `unsubscribe` make of one topic. */
  function CheckTopic(s: State, name: string): (e: Option<ClientError>)
    ensures e.None? <==> HasHandler(s, name)
    ensures e == Some(InvalidTopic(name)) <==> Parse(name).None?
    ensures e.Some? ==> e.value == InvalidTopic(name) || e.value == NoHandler(name)
  {
    match ContainsWildcards(name)
    case Err(err) => Some(err)
    case Ok(wild) =>
      if name in (if wild then s.patterns else s.topics) then None
      else Some(NoHandler(name))
  }

  /** The first error of a sequence of checks, if any. */
  function FirstError(es: seq<Option<ClientError>>): (e: Option<ClientError>)
    ensures e.None? <==> forall i :: 0 <= i < |es| ==> es[i].None?
    ensures e.Some? ==> exists i :: 0 <= i < |es| && es[i] == e && forall j :: 0 <= j < i ==> es[j].None?
  {
    if |es| == 0 then None
    else if es[0].Some? then es[0]
    else FirstError(es[1..])
  }

  /** The topics are checked in order and the first one without a handler
      decides the error. */
  function CheckTopics(s: State, names: seq<string>): (e: Option<ClientError>)
    ensures e.None? <==> forall i :: 0 <= i < |names| ==> HasHandler(s, names[i])
    ensures e.Some? ==> exists i :: 0 <= i < |names| && Some(e.value) == CheckTopic(s, names[i])
                          && forall j :: 0 <= j < i ==> HasHandler(s, names[j])
  {
    var checks := seq(|names|, i requires 0 <= i < |names| => CheckTopic(s, names[i]));
    assert forall i :: 0 <= i < |names| ==> checks[i] == CheckTopic(s, names[i]);
    FirstError(checks)
  }

  /** The topic names of a subscription list. */
  function TopicNames(topics: seq<(string, QoS)>): (names: seq<string>)
    ensures |names| == |topics|
    ensures forall i :: 0 <= i < |topics| ==> names[i] == topics[i].0
  {
    if |topics| == 0 then [] else [topics[0].0] + TopicNames(topics[1..])
  }

  /** The local correlation key of a subscribe, `2 * id + 1` computed in
      `u16`: always odd. */
  function SubKey(id: U16): (k: nat)
    ensures k < U16_MODULUS && k % 2 == 1
    ensures id < 0x8000 ==> k == 2 * id + 1
  {
    Wrap16(Wrap16(2 * id) + 1)
  }

  /** The local correlation key of an unsubscribe, `2 * id` computed in
      `u16`: always even. */
  function UnsubKey(id: U16): (k: nat)
    ensures k < U16_MODULUS && k % 2 == 0
    ensures id < 0x8000 ==> k == 2 * id
  {
    Wrap16(2 * id)
  }

  /** `subscribe`: fails, with nothing changed, unless every topic has a
      handler; otherwise stores the response callback at the odd key of the
      current subscribe counter, advances that counter (wrapping) and hands
      a SUBSCRIBE carrying the counter and the caller's topics and QoS to
      `handle_slot`. */
  function Subscribe(s: State, topics: seq<(string, QoS)>, cb: Option<Callback>): (r: Result<State, ClientError>)
    ensures r.Err? <==> exists i :: 0 <= i < |topics| && !HasHandler(s, topics[i].0)
    ensures r.Err? ==> exists i :: 0 <= i < |topics| && Some(r.error) == CheckTopic(s, topics[i].0)
                          && forall j :: 0 <= j < i ==> HasHandler(s, topics[j].0)
    ensures r.Ok? ==> r.value.pending == s.pending[SubKey(s.nextSubId) := cb]
    ensures r.Ok? ==> r.value.nextSubId == Next16(s.nextSubId) && r.value.nextUnsubId == s.nextUnsubId
    ensures r.Ok? ==> Dispatched(s, r.value, SendSubscribe(s.nextSubId, topics))
    ensures r.Ok? ==> SameSetup(s, r.value)
    ensures r.Ok? && Valid(s) ==> Valid(r.value)
  {
    var names := TopicNames(topics);
    match CheckTopics(s, names)
    case Some(err) => Err(err)
    case None =>
      var id := s.nextSubId;
      var reserved := s.(pending := s.pending[SubKey(id) := cb], nextSubId := Next16(id));
      Ok(HandleSlot(reserved, SendSubscribe(id, topics)))
  }

  /** `unsubscribe`: the mirror image of `subscribe` with the even key and
      the unsubscribe counter. */
  function Unsubscribe(s: State, names: seq<string>, cb: Option<Callback>): (r: Result<State, ClientError>)
    ensures r.Err? <==> exists i :: 0 <= i < |names| && !HasHandler(s, names[i])
    ensures r.Err? ==> exists i :: 0 <= i < |names| && Some(r.error) == CheckTopic(s, names[i])
                          && forall j :: 0 <= j < i ==> HasHandler(s, names[j])
    ensures r.Ok? ==> r.value.pending == s.pending[UnsubKey(s.nextUnsubId) := cb]
    ensures r.Ok? ==> r.value.nextUnsubId == Next16(s.nextUnsubId) && r.value.nextSubId == s.nextSubId
    ensures r.Ok? ==> Dispatched(s, r.value, SendUnsubscribe(s.nextUnsubId, names))
    ensures r.Ok? ==> SameSetup(s, r.value)
    ensures r.Ok? && Valid(s) ==> Valid(r.value)
  {
    match CheckTopics(s, names)
    case Some(err) => Err(err)
    case None =>
      var id := s.nextUnsubId;
      var reserved := s.(pending := s.pending[UnsubKey(id) := cb], nextUnsubId := Next16(id));
      Ok(HandleSlot(reserved, SendUnsubscribe(id, names)))
  }

  /** `disconnect`: hands a DISCONNECT to `handle_slot`, then forgets both
      callbacks, both counters, every pending completion, attribute and
      handler, and the queue. The transport and keep-alive interval stay;
      without a transport the DISCONNECT itself is discarded with the
      queue. */
  function Disconnect(s: State): (r: State)
    ensures r.connectCb.None? && r.closeCb.None?
    ensures r.nextSubId == 0 && r.nextUnsubId == 0
    ensures r.pending == map[] && r.attributes == map[] && r.topics == map[] && r.patterns == map[]
    ensures r.queue == []
    ensures r.transport == s.transport && r.keepAlive == s.keepAlive
    ensures s.transport.None? ==> r.sent == s.sent && r.armed == s.armed
    ensures s.transport.Some? ==> r.sent == s.sent + [SendDisconnect]
                                  && r.armed == s.armed + KeepAliveArm(s.keepAlive)
    ensures Valid(r)
  {
    var slotted := HandleSlot(s, SendDisconnect);
    slotted.(connectCb := None, closeCb := None, nextSubId := 0, nextUnsubId := 0,
             pending := map[], attributes := map[], topics := map[], patterns := map[],
             queue := [])
  }

  /** `publish`: a name that does not parse or contains wildcards is
      refused; otherwise a PUBLISH with the caller's retain flag, topic and
      payload, always at QoS "at most once", goes to `handle_slot`. */
  function Publish(s: State, retain: bool, qos: QoS, topic: string, payload: Bytes): (r: Result<State, ClientError>)
    ensures r.Err? <==> Parse(topic).None? || HasWildcards(Parse(topic).value)
    ensures Parse(topic).None? ==> r == Err(InvalidTopic(topic))
    ensures Parse(topic).Some? && HasWildcards(Parse(topic).value) ==> r == Err(InvalidPublishTopic)
    ensures r.Ok? ==> Dispatched(s, r.value, SendPublish(retain, AtMostOnce, topic, payload))
    ensures r.Ok? ==> SameSetup(s, r.value) && r.value.pending == s.pending
    ensures r.Ok? ==> r.value.nextSubId == s.nextSubId && r.value.nextUnsubId == s.nextUnsubId
    ensures r.Ok? && Valid(s) ==> Valid(r.value)
  {
    match ContainsWildcards(topic)
    case Err(err) => Err(err)
    case Ok(wild) =>
      if wild then Err(InvalidPublishTopic)
      else Ok(HandleSlot(s, SendPublish(retain, AtMostOnce, topic, payload)))
  }

  /** `set_topic_handler`: a name that parses is bound, replacing any
      earlier binding of that name, in the pattern map when its filter has
      wildcards and in the exact map otherwise; the other map is left
      alone. */
  function SetTopicHandler(s: State, name: string, handler: Handler): (r: Result<State, ClientError>)
    ensures r.Err? <==> Parse(name).None?
    ensures r.Err? ==> r.error == InvalidTopic(name)
    ensures r.Ok? && HasWildcards(Parse(name).value) ==>
              && r.value.patterns == s.patterns[name := TopicData(Parse(name).value, handler)]
              && r.value.topics == s.topics
    ensures r.Ok? && !HasWildcards(Parse(name).value) ==>
              && r.value.topics == s.topics[name := TopicData(Parse(name).value, handler)]
              && r.value.patterns == s.patterns
    ensures r.Ok? ==> r.value == s.(topics := r.value.topics, patterns := r.value.patterns)
    ensures r.Ok? ==> HasHandler(r.value, name)
    ensures r.Ok? && Valid(s) ==> Valid(r.value)
  {
    match Parse(name)
    case None => Err(InvalidTopic(name))
    case Some(f) =>
      var data := TopicData(f, handler);
      if HasWildcards(f) then Ok(s.(patterns := s.patterns[name := data]))
      else Ok(s.(topics := s.topics[name := data]))
  }

  /** `remove_topic_handler`: a name that parses is unbound from the map
      its wildcard flag selects (nothing happens if it was not bound). */
  function RemoveTopicHandler(s: State, name: string): (r: Result<State, ClientError>)
    ensures r.Err? <==> Parse(name).None?
    ensures r.Err? ==> r.error == InvalidTopic(name)
    ensures r.Ok? && HasWildcards(Parse(name).value) ==>
              r.value.patterns == s.patterns - {name} && r.value.topics == s.topics
    ensures r.Ok? && !HasWildcards(Parse(name).value) ==>
              r.value.topics == s.topics - {name} && r.value.patterns == s.patterns
    ensures r.Ok? ==> r.value == s.(topics := r.value.topics, patterns := r.value.patterns)
    ensures r.Ok? ==> !HasHandler(r.value, name)
    ensures r.Ok? && Valid(s) ==> Valid(r.value)
  {
    match Parse(name)
    case None => Err(InvalidTopic(name))
    case Some(f) =>
      if HasWildcards(f) then Ok(s.(patterns := s.patterns - {name}))
      else Ok(s.(topics := s.topics - {name}))
  }

  /** `add_attribute`: the first value stored under a name is kept. */
  function AddAttribute(s: State, name: string, value: Bytes): (r: State)
    ensures name in r.attributes
    ensures r.attributes[name] == (if name in s.attributes then s.attributes[name] else value)
    ensures forall n :: n != name ==> (n in r.attributes <==> n in s.attributes)
    ensures forall n :: n != name && n in s.attributes ==> r.attributes[n] == s.attributes[n]
    ensures r == s.(attributes := r.attributes)
  {
    if name in s.attributes then s else s.(attributes := s.attributes[name := value])
  }

  /** `remove_attribute`: forgets one name, keeping every other. */
  function RemoveAttribute(s: State, name: string): (r: State)
    ensures name !in r.attributes
    ensures forall n :: n != name ==> (n in r.attributes <==> n in s.attributes)
    ensures forall n :: n != name && n in s.attributes ==> r.attributes[n] == s.attributes[n]
    ensures r == s.(attributes := r.attributes)
  {
    s.(attributes := s.attributes - {name})
  }

  /** `get_attribute`: the stored value, if any. */
  function GetAttribute(s: State, name: string): (r: Option<Bytes>)
    ensures r.Some? <==> name in s.attributes
    ensures r.Some? ==> r.value == s.attributes[name]
  {
    if name in s.attributes then Some(s.attributes[name]) else None
  }
}

=== FILE: client_lemmas.dfy ===
/** Properties that relate several client operations: request/acknowledge
    round trips, the correlation-key scheme, replay order of deferred
    actions, the reset done by `disconnect`, first-write-wins attributes
    and the agreement of publish dispatch with filter matching. */
module ClientLemmas {
  import opened Prelude
  import opened Topic
  import opened Client
  import opened ClientRecv

  /** Because names are partitioned by their wildcard flag, looking a name
      up in the map its flag selects is the same as asking whether either
      map holds it. */
  lemma HandlerLookupIsMembership(s: State, name: string)
    requires Valid(s)
    ensures HasHandler(s, name) <==> name in s.topics || name in s.patterns
  {
    if name in s.topics {
      assert Parse(name) == Some(s.topics[name].filter);
    }
    if name in s.patterns {
      assert Parse(name) == Some(s.patterns[name].filter);
    }
  }

  /** No name is bound in both maps. */
  lemma HandlerMapsDisjoint(s: State)
    requires Valid(s)
    ensures s.topics.Keys !! s.patterns.Keys
  {
  }

  /** A subscribe key and an unsubscribe key never coincide, whatever the
      two counters hold. */
  lemma KeysNeverCollide(subId: U16, unsubId: U16)
    ensures SubKey(subId) != UnsubKey(unsubId)
  {
  }

  /** Because the keys are computed in 16 bits, identifiers 32768 apart
      share a key, so a later request can overwrite an earlier pending
      callback of the same direction. */
  lemma KeysAliasAcrossHalf(id: U16)
    requires id < 0x8000
    ensures SubKey(id) == SubKey(id + 0x8000)
    ensures UnsubKey(id) == UnsubKey(id + 0x8000)
  {
  }

  /** Below 32768 distinct identifiers have distinct keys. */
  lemma KeysDistinctBelowHalf(i: U16, j: U16)
    requires i < 0x8000 && j < 0x8000 && i != j
    ensures SubKey(i) != SubKey(j)
    ensures UnsubKey(i) != UnsubKey(j)
  {
  }

  /** A SUBACK carrying the identifier a subscribe was sent with fires that
      subscribe's callback once, with success, and forgets it. */
  lemma SubscribeThenSuback(s: State, topics: seq<(string, QoS)>, cb: Callback)
    requires Subscribe(s, topics, Some(cb)).Ok?
    ensures var sub := Subscribe(s, topics, Some(cb)).value;
            var ack := RecvSuback(sub, s.nextSubId);
            && ack.completion == Some(Completion(cb, Done))
            && ack.next.pending == s.pending - {SubKey(s.nextSubId)}
            && RecvSuback(ack.next, s.nextSubId).completion.None?
  {
  }

  /** The same round trip for unsubscribe and UNSUBACK. */
  lemma UnsubscribeThenUnsuback(s: State, names: seq<string>, cb: Callback)
    requires Unsubscribe(s, names, Some(cb)).Ok?
    ensures var unsub := Unsubscribe(s, names, Some(cb)).value;
            var ack := RecvUnsuback(unsub, s.nextUnsubId);
            && ack.completion == Some(Completion(cb, Done))
            && ack.next.pending == s.pending - {UnsubKey(s.nextUnsubId)}
            && RecvUnsuback(ack.next, s.nextUnsubId).completion.None?
  {
  }

  /** A SUBACK never resolves a pending unsubscribe, and an UNSUBACK never a
      pending subscribe. */
  lemma AcksKeepTheOtherDirection(s: State, pid: U16, key: nat)
    requires key in s.pending
    ensures key % 2 == 0 ==> key in RecvSuback(s, pid).next.pending
    ensures key % 2 == 1 ==> key in RecvUnsuback(s, pid).next.pending
  {
  }

  /** Two successful subscribes in a row send different packet
      identifiers, and leave the unsubscribe counter alone. */
  lemma ConsecutiveSubscribesDiffer(s: State, t1: seq<(string, QoS)>, t2: seq<(string, QoS)>,
                                    c1: Option<Callback>, c2: Option<Callback>)
    requires Subscribe(s, t1, c1).Ok?
    requires Subscribe(Subscribe(s, t1, c1).value, t2, c2).Ok?
    ensures var s1 := Subscribe(s, t1, c1).value;
            var s2 := Subscribe(s1, t2, c2).value;
            && s1.nextSubId != s.nextSubId
            && s2.nextUnsubId == s.nextUnsubId
  {
  }

  /** The connect callback fires at most once: a second CONNACK finds it
      gone. */
  lemma ConnackFiresOnce(s: State, first: ReturnCode, second: ReturnCode)
    ensures RecvConnack(RecvConnack(s, first).next, second).completion.None?
  {
  }

  /** `handle_slot` applied to each action in turn. */
  function SlotAll(s: State, actions: seq<Action>): State
    decreases |actions|
  {
    if |actions| == 0 then s else SlotAll(HandleSlot(s, actions[0]), actions[1..])
  }

  /** Actions issued one after another are issued in that order, whether
      they are executed at once or deferred, and the invariant holds
      throughout. */
  lemma {:induction false} SlotAllIssuesInOrder(s: State, actions: seq<Action>)
    requires Valid(s)
    ensures Valid(SlotAll(s, actions))
    ensures Issued(SlotAll(s, actions)) == Issued(s) + actions
    ensures SlotAll(s, actions).transport == s.transport
    decreases |actions|
  {
    if |actions| > 0 {
      var next := HandleSlot(s, actions[0]);
      SlotAllIssuesInOrder(next, actions[1..]);
      assert Issued(s) + actions == Issued(s) + [actions[0]] + actions[1..];
    }
  }

  /** Actions submitted before `set_stream` are executed, in submission
      order, when the transport arrives, and nothing is left queued. */
  lemma ReplayInOrder(s: State, actions: seq<Action>, t: Transport)
    requires Valid(s) && s.transport.None?
    ensures Attach(SlotAll(s, actions), t).sent == s.sent + s.queue + actions
    ensures Attach(SlotAll(s, actions), t).queue == []
  {
    SlotAllIssuesInOrder(s, actions);
  }

  /** After `disconnect` and a new `set_stream` the client has no handlers,
      attributes, pending completions or callbacks, and both counters are
      back at zero. */
  lemma DisconnectThenAttach(s: State, t: Transport)
    ensures var r := Attach(Disconnect(s), t);
            && r.topics == map[] && r.patterns == map[] && r.attributes == map[]
            && r.pending == map[] && r.connectCb.None? && r.closeCb.None?
            && r.nextSubId == 0 && r.nextUnsubId == 0
            && r.transport == Some(t) && r.queue == [] && Valid(r)
  {
  }

  /** Without a transport, `disconnect` discards everything still queued,
      its own DISCONNECT included: nothing it issued will ever be sent. */
  lemma DisconnectDiscardsQueue(s: State)
    requires s.transport.None?
    ensures Issued(Disconnect(s)) == s.sent
  {
  }

  /** Disconnecting twice while unattached is the same as once. */
  lemma DisconnectIdempotentUnattached(s: State)
    requires s.transport.None?
    ensures Disconnect(Disconnect(s)) == Disconnect(s)
  {
  }

  /** The second value added under a name never replaces the first. */
  lemma FirstWriteWins(s: State, name: string, first: Bytes, second: Bytes)
    requires name !in s.attributes
    ensures GetAttribute(AddAttribute(AddAttribute(s, name, first), name, second), name) == Some(first)
  {
  }

  /** Removing a name is the only way to replace its value: after
      `remove_attribute` the next `add_attribute` is stored, and before it
      the name reads as absent. */
  lemma RemoveThenAdd(s: State, name: string, value: Bytes)
    ensures GetAttribute(RemoveAttribute(s, name), name).None?
    ensures GetAttribute(AddAttribute(RemoveAttribute(s, name), name, value), name) == Some(value)
  {
  }

  /** Removing a handler that was just set for a fresh name gives back the
      state from before. */
  lemma SetThenRemoveHandler(s: State, name: string, h: Handler)
    requires Parse(name).Some?
    requires name !in s.topics && name !in s.patterns
    ensures SetTopicHandler(s, name, h).Ok?
    ensures RemoveTopicHandler(SetTopicHandler(s, name, h).value, name) == Ok(s)
  {
    var f := Parse(name).value;
    if HasWildcards(f) {
      assert s.patterns[name := TopicData(f, h)] - {name} == s.patterns;
    } else {
      assert s.topics[name := TopicData(f, h)] - {name} == s.topics;
    }
  }

  /** The QoS a caller asks for has no effect on what `publish` does. */
  lemma PublishIgnoresQoS(s: State, retain: bool, q1: QoS, q2: QoS, topic: string, payload: Bytes)
    ensures Client.Publish(s, retain, q1, topic, payload) == Client.Publish(s, retain, q2, topic, payload)
  {
  }

  /** The names of the registrations a reaction delivered to. */
  function DeliveredKeys(r: Reaction): set<string>
  {
    set d | d in r.deliveries :: d.key
  }

  /** Publish dispatch is plain filter matching over both maps: in a valid
      state the registrations that receive a publish to a parseable topic
      are exactly those whose filter matches it, and each receives it with
      its own handler. The verbatim lookup in the exact map is the special
      case of a filter without wildcards. */
  lemma PublishIsUniformMatch(s: State, topic: string, payload: Bytes)
    requires Valid(s) && Parse(topic).Some? && s.transport.Some?
    ensures forall k :: k in DeliveredKeys(RecvPublish(s, topic, payload)) <==>
              (k in s.topics && Matches(s.topics[k].filter, topic))
              || (k in s.patterns && Matches(s.patterns[k].filter, topic))
    ensures forall d :: d in RecvPublish(s, topic, payload).deliveries ==>
              d.handler == (if d.fromPatterns then s.patterns[d.key].handler else s.topics[d.key].handler)
  {
    var r := RecvPublish(s, topic, payload);
    forall k | k in s.topics
      ensures Matches(s.topics[k].filter, topic) <==> k == topic
    {
      PlainFilterMatchesOnlyItsName(k, topic);
    }
    forall k | k in s.topics && Matches(s.topics[k].filter, topic)
      ensures k in DeliveredKeys(r)
    {
      assert Delivery(false, topic, s.topics[topic].handler, payload) in r.deliveries;
    }
    forall k | k in s.patterns && Matches(s.patterns[k].filter, topic)
      ensures k in DeliveredKeys(r)
    {
      assert Delivery(true, k, s.patterns[k].handler, payload) in r.deliveries;
    }
  }

  /** A handler set for a name without wildcards is called once by a
      publish to that name, and no publish to another name reaches it
      through the exact map. */
  lemma ExactHandlerDelivery(s: State, name: string, h: Handler, other: string, payload: Bytes)
    requires Valid(s) && s.transport.Some?
    requires Parse(name).Some? && !HasWildcards(Parse(name).value)
    requires other != name
    ensures SetTopicHandler(s, name, h).Ok?
    ensures var s' := SetTopicHandler(s, name, h).value;
            && Delivery(false, name, h, payload) in RecvPublish(s', name, payload).deliveries
            && (Parse(other).Some? ==>
                  forall d :: d in RecvPublish(s', other, payload).deliveries ==> d.key != name)
  {
    var s' := SetTopicHandler(s, name, h).value;
    if Parse(other).Some? {
      PublishIsUniformMatch(s', other, payload);
      HandlerMapsDisjoint(s');
      PlainFilterMatchesOnlyItsName(name, other);
      forall d | d in RecvPublish(s', other, payload).deliveries
        ensures d.key != name
      {
        assert d.key in DeliveredKeys(RecvPublish(s', other, payload));
      }
    }
  }

  /** A subscribe to a topic that parses but has no handler fails with
      that topic named, and sends nothing (the failure carries no new
      state). */
  lemma SubscribeUnknownTopic(s: State, name: string, q: QoS, cb: Option<Callback>)
    requires Parse(name).Some? && !HasHandler(s, name)
    ensures Subscribe(s, [(name, q)], cb) == Err(NoHandler(name))
  {
    assert TopicNames([(name, q)]) == [name];
  }
}

=== FILE: client_recv.dfy ===
/** Inbound packets: the handlers the receive loop calls for each decoded
    packet (`handle_recv` and the `recv_*` functions).

    Invoking a user closure is an observable effect rather than a state
    change, so each handler returns a `Reaction`: the next state, the
    completion callback it fired (if any) and the set of topic-handler
    deliveries it made. Deliveries form a set because the pattern map is
    walked in an unspecified order. */
module ClientRecv {
  import opened Prelude
  import opened Topic
  import opened Client

  /** CONNACK return codes, section 3.2.2.3 of MQTT 3.1.1. */
  datatype ReturnCode =
    | Accepted
    | RefusedProtocolVersion
    | RefusedIdentifierRejected
    | ServerUnavailable
    | BadUsernamePassword
    | NotAuthorized

  /** What a completion callback receives: `Ok(())` or the refusal. */
  datatype Status = Done | Refused(code: ReturnCode)

  datatype Completion = Completion(callback: Callback, status: Status)

  /** One call of a topic handler with the published payload. `fromPatterns`
      tells the wildcard map from the exact one. */
  datatype Delivery = Delivery(fromPatterns: bool, key: string, handler: Handler, payload: Bytes)

  datatype Reaction = Reaction(next: State, completion: Option<Completion>, deliveries: set<Delivery>)

  /** The decoded packets a client can receive. `Unexpected` stands for
      every packet type a client should never be sent. */
  datatype Packet =
    | Connack(code: ReturnCode)
    | Suback(pid: U16)
    | Unsuback(pid: U16)
    | Publish(topic: string, payload: Bytes)
    | Pingresp
    | Unexpected

  /** A receive failure reported by the packet decoder. */
  datatype RecvError = RecvError

  /** The result handed to the connect callback: only `Accepted` is a
      success. */
  function ConnackStatus(code: ReturnCode): (st: Status)
    ensures st.Done? <==> code == Accepted
    ensures st.Refused? ==> st.code == code
  {
    if code == Accepted then Done else Refused(code)
  }

  /** `recv_connect_ack`: takes the connect callback out of the state and,
      if there was one, fires it with the status of the return code. */
  function RecvConnack(s: State, code: ReturnCode): (r: Reaction)
    ensures r.next == s.(connectCb := None)
    ensures r.completion.Some? <==> s.connectCb.Some?
    ensures r.completion.Some? ==> r.completion.value.callback == s.connectCb.value
    ensures r.completion.Some? ==> (r.completion.value.status.Done? <==> code == Accepted)
    ensures r.completion.Some? ==> r.completion.value.status == ConnackStatus(code)
    ensures r.deliveries == {}
  {
    match s.connectCb
    case None => Reaction(s, None, {})
    case Some(cb) => Reaction(s.(connectCb := None), Some(Completion(cb, ConnackStatus(code))), {})
  }

  /** The key a SUBACK with identifier `pid` resolves, computed in `u16`
      as `1 + pid * 2`. */
  function SubackKey(pid: U16): (k: nat)
    ensures k == SubKey(pid)
  {
    Wrap16(1 + Wrap16(pid * 2))
  }

  /** The key an UNSUBACK with identifier `pid` resolves, computed in
      `u16` as `pid * 2`. */
  function UnsubackKey(pid: U16): (k: nat)
    ensures k == UnsubKey(pid)
  {
    Wrap16(pid * 2)
  }

  /** Removes the entry at `key`; fires its callback with success only when
      the entry exists and holds a callback. An unknown key changes
      nothing. */
  function Resolve(s: State, key: nat): (r: Reaction)
    ensures r.next == s.(pending := s.pending - {key})
    ensures key !in s.pending ==> r.next == s
    ensures r.completion.Some? <==> key in s.pending && s.pending[key].Some?
    ensures r.completion.Some? ==> r.completion.value == Completion(s.pending[key].value, Done)
    ensures r.deliveries == {}
  {
    var next := s.(pending := s.pending - {key});
    if key in s.pending && s.pending[key].Some? then
      Reaction(next, Some(Completion(s.pending[key].value, Done)), {})
    else
      Reaction(next, None, {})
  }

  /** `recv_sub_ack`. */
  function RecvSuback(s: State, pid: U16): (r: Reaction)
    ensures r.next.pending == s.pending - {SubKey(pid)}
    ensures r.next == s.(pending := r.next.pending)
    ensures r.completion.Some? <==> SubKey(pid) in s.pending && s.pending[SubKey(pid)].Some?
    ensures r.completion.Some? ==> r.completion.value == Completion(s.pending[SubKey(pid)].value, Done)
    ensures r.deliveries == {}
  {
    Resolve(s, SubackKey(pid))
  }

  /** `recv_unsub_ack`. */
  function RecvUnsuback(s: State, pid: U16): (r: Reaction)
    ensures r.next.pending == s.pending - {UnsubKey(pid)}
    ensures r.next == s.(pending := r.next.pending)
    ensures r.completion.Some? <==> UnsubKey(pid) in s.pending && s.pending[UnsubKey(pid)].Some?
    ensures r.completion.Some? ==> r.completion.value == Completion(s.pending[UnsubKey(pid)].value, Done)
    ensures r.deliveries == {}
  {
    Resolve(s, UnsubackKey(pid))
  }

  /** The handlers whose filters match `topic` in the pattern map. */
  function PatternDeliveries(patterns: map<string, TopicData>, topic: string, payload: Bytes): (ds: set<Delivery>)
    ensures forall d :: d in ds <==>
              && d.fromPatterns && d.key in patterns && d.payload == payload
              && d.handler == patterns[d.key].handler
              && Matches(patterns[d.key].filter, topic)
  {
    set k | k in patterns && Matches(patterns[k].filter, topic) :: Delivery(true, k, patterns[k].handler, payload)
  }

  /** `recv_publish`: a topic that does not parse reaches no handler.
      Otherwise the handler registered under exactly that name (if any) and
      every pattern handler whose filter matches the topic are called once
      with the payload. The state is not changed. The socket handed to the
      handlers is unwrapped, so a parsed topic needs an attached
      transport. */
  function RecvPublish(s: State, topic: string, payload: Bytes): (r: Reaction)
    requires Parse(topic).Some? ==> s.transport.Some?
    ensures r.next == s && r.completion.None?
    ensures Parse(topic).None? ==> r.deliveries == {}
    ensures forall d :: d in r.deliveries ==> d.payload == payload
    ensures forall d :: d in r.deliveries && !d.fromPatterns ==>
              d.key == topic && topic in s.topics && d.handler == s.topics[topic].handler
    ensures Parse(topic).Some? && topic in s.topics ==>
              Delivery(false, topic, s.topics[topic].handler, payload) in r.deliveries
    ensures forall d: Delivery :: d.fromPatterns ==>
              (d in r.deliveries <==>
                 && Parse(topic).Some? && d.key in s.patterns && d.payload == payload
                 && d.handler == s.patterns[d.key].handler
                 && Matches(s.patterns[d.key].filter, topic))
  {
    if Parse(topic).None? then Reaction(s, None, {})
    else
      var exact := if topic in s.topics then {Delivery(false, topic, s.topics[topic].handler, payload)} else {};
      Reaction(s, None, exact + PatternDeliveries(s.patterns, topic, payload))
  }

  /** `handle_recv`: a receive error is ignored; each packet goes to its
      handler; PINGRESP is ignored. Any other packet type is a protocol
      violation that the client does not survive, so it is excluded. */
  function HandleRecv(s: State, packet: Result<Packet, RecvError>): (r: Reaction)
    requires packet.Ok? ==> !packet.value.Unexpected?
    requires packet.Ok? && packet.value.Publish? && Parse(packet.value.topic).Some? ==> s.transport.Some?
    ensures packet.Err? || packet.value.Pingresp? ==> r == Reaction(s, None, {})
    ensures packet.Ok? && packet.value.Connack? ==> r == RecvConnack(s, packet.value.code)
    ensures packet.Ok? && packet.value.Suback? ==> r == RecvSuback(s, packet.value.pid)
    ensures packet.Ok? && packet.value.Unsuback? ==> r == RecvUnsuback(s, packet.value.pid)
    ensures packet.Ok? && packet.value.Publish? ==> r == RecvPublish(s, packet.value.topic, packet.value.payload)
    ensures Valid(s) ==> Valid(r.next)
    ensures r.next.transport == s.transport && r.next.queue == s.queue && r.next.sent == s.sent
  {
    match packet
    case Err(_) => Reaction(s, None, {})
    case Ok(p) =>
      match p
      case Connack(code) => RecvConnack(s, code)
      case Suback(pid) => RecvSuback(s, pid)
      case Unsuback(pid) => RecvUnsuback(s, pid)
      case Publish(topic, payload) => RecvPublish(s, topic, payload)
      case Pingresp => Reaction(s, None, {})
  }
}

=== FILE: http_parser.dfy ===
/** The HTTP gateway's default parser middleware.

    On the way in it copies query pairs into the request's parameter table,
    refuses a body whose declared charset is not UTF-8 with status 415
    (section 6.5.13 of RFC 7231), and otherwise adds the body to the table
    according to its Content-Type. On the way out it picks a content coding
    from Accept-Encoding (section 5.3.4 of RFC 7231), compresses a large
    enough body with it, and makes sure the response carries a
    Content-Length (section 3.3.2 of RFC 7230).

    Parsing of MIME types, URL queries, form bodies and JSON, and the
    compressors themselves, are foreign code: their results arrive as
    parameters. */
module DefaultParser {
  import opened Prelude
  import opened Text

  const DEFLATE_ENCODING: string := "deflate"
  const GZIP_ENCODING: string := "gzip"
  const CONTENT_ENCODING: string := "content-encoding"
  const CONTENT_LENGTH: string := "content-length"
  const UTF_8: string := "utf-8"
  const UNSUPPORTED_MEDIA_TYPE: nat := 415

  /** The levels of flate2's `Compression::fast()` and
      `Compression::best()`. */
  const FAST_LEVEL: nat := 1
  const BEST_LEVEL: nat := 9

  type U32 = x: nat | x < 0x1_0000_0000

  /** The configuration kept by the middleware. */
  datatype Parser = Parser(minPlainLimit: nat, level: nat)

  // ---------------------------------------------------------------------
  // Construction

  /** The compression level `with` chooses: fast when absent or zero, the
      requested level from 1 to 9, best above 9. */
  function SelectLevel(level: Option<U32>): (r: nat)
    ensures FAST_LEVEL <= r <= BEST_LEVEL
    ensures level.None? ==> r == FAST_LEVEL
    ensures level.Some? && level.value == 0 ==> r == FAST_LEVEL
    ensures level.Some? && 1 <= level.value <= 9 ==> r == level.value
    ensures level.Some? && level.value > 9 ==> r == BEST_LEVEL
  {
    match level
    case None => FAST_LEVEL
    case Some(l) =>
      if l > 9 then BEST_LEVEL
      else if l > 0 then l
      else FAST_LEVEL
  }

  /** A requested level never yields a lower level than a smaller request,
      and a chosen level chooses itself again. */
  lemma SelectLevelMonotoneAndStable(a: U32, b: U32)
    requires a <= b
    ensures SelectLevel(Some(a)) <= SelectLevel(Some(b))
    ensures SelectLevel(Some(SelectLevel(Some(a)))) == SelectLevel(Some(a))
  {
  }

  /** `DefaultParser::with`. */
  function With(minPlainLimit: nat, level: Option<U32>): (p: Parser)
    ensures p.minPlainLimit == minPlainLimit
    ensures FAST_LEVEL <= p.level <= BEST_LEVEL
    ensures level.Some? && 1 <= level.value <= 9 ==> p.level == level.value
    ensures (level.None? || level.value == 0) ==> p.level == FAST_LEVEL
    ensures level.Some? && level.value > 9 ==> p.level == BEST_LEVEL
    ensures p.level == SelectLevel(level)
  {
    Parser(minPlainLimit, SelectLevel(level))
  }

  // ---------------------------------------------------------------------
  // Accept-Encoding

  datatype Coding = Deflate | Gzip

  function CodingName(c: Coding): string
  {
    match c
    case Deflate => DEFLATE_ENCODING
    case Gzip => GZIP_ENCODING
  }

  /** Only the exact tokens `deflate` and `gzip` are recognised. */
  function Recognise(token: string): (c: Option<Coding>)
    ensures c.Some? <==> token == DEFLATE_ENCODING || token == GZIP_ENCODING
    ensures c.Some? ==> CodingName(c.value) == token
  {
    if token == DEFLATE_ENCODING then Some(Deflate)
    else if token == GZIP_ENCODING then Some(Gzip)
    else None
  }

  /** One comma-separated element of the header reduced to its coding: the
      trimmed text before the first `;`, trimmed again. */
  function Element(val: string): (token: string)
    ensures ';' !in token
    ensures |token| == 0 || (!IsSpace(token[0]) && !IsSpace(token[|token| - 1]))
    ensures ';' !in val ==> token == Trim(val)
  {
    var token := Trim(Split(Trim(val), ';')[0]);
    ElementShape(val);
    token
  }

  /** The element's token never holds a `;`, and without a `;` it is the
      whole value, trimmed. */
  lemma ElementShape(val: string)
    ensures ';' !in Trim(Split(Trim(val), ';')[0])
    ensures ';' !in val ==> Trim(Split(Trim(val), ';')[0]) == Trim(val)
  {
    var first := Split(Trim(val), ';')[0];
    assert ';' !in first;
    TrimKeepsAbsence(first, ';');
    if ';' !in val {
      PlainElement(val);
    }
  }

  /** Without a `;` the element is the whole value, trimmed. */
  lemma PlainElement(val: string)
    requires ';' !in val
    ensures Trim(Split(Trim(val), ';')[0]) == Trim(val)
  {
    TrimKeepsAbsence(val, ';');
    assert Split(Trim(val), ';') == [Trim(val)];
    TrimIdempotent(val);
  }

  /** The codings a header value lists, in order: one token per
      comma-separated element. */
  function Tokens(header: string): (tokens: seq<string>)
    ensures |tokens| >= 1
  {
    var parts := Split(header, ',');
    seq(|parts|, i requires 0 <= i < |parts| => Element(parts[i]))
  }

  /** A header written as a comma-separated list yields one token per
      listed element, in order. */
  lemma TokensOfList(es: seq<string>)
    requires |es| >= 1 && forall i :: 0 <= i < |es| ==> ',' !in es[i]
    ensures Tokens(Join(es, ',')) == seq(|es|, i requires 0 <= i < |es| => Element(es[i]))
  {
    SplitJoin(es, ',');
  }

  /** A plain list of codings without parameters is read as the trimmed
      list elements: `gzip, deflate` offers `gzip` first. */
  lemma PlainListIsTrimmed(es: seq<string>)
    requires |es| >= 1 && forall i :: 0 <= i < |es| ==> ',' !in es[i] && ';' !in es[i]
    ensures Tokens(Join(es, ',')) == seq(|es|, i requires 0 <= i < |es| => Trim(es[i]))
  {
    TokensOfList(es);
  }

  /** The first recognised token, if any. */
  function Chosen(tokens: seq<string>): (c: Option<Coding>)
    ensures c.None? <==> forall i :: 0 <= i < |tokens| ==> Recognise(tokens[i]).None?
    ensures c.Some? ==> exists i :: 0 <= i < |tokens| && Recognise(tokens[i]) == c
                           && forall j :: 0 <= j < i ==> Recognise(tokens[j]).None?
  {
    if |tokens| == 0 then None
    else if Recognise(tokens[0]).Some? then Recognise(tokens[0])
    else Chosen(tokens[1..])
  }

  /** Parameters after `;` (a q-value among them) never change the coding
      an element names: the element is its name, trimmed. */
  lemma QValuesIgnored(name: string, params: string)
    requires ';' !in name
    ensures Element(name + [';'] + params) == Trim(name)
  {
    var start := TrimStart(name);
    TrimStartBeforeSemicolon(name, params);
    TrimEndAfterSemicolon(start, params);
    var trimmed := start + [';'] + TrimEnd(params);
    assert Trim(name + [';'] + params) == trimmed;
    TrimKeepsAbsence(name, ';');
    SplitHead(start, ';', TrimEnd(params));
    assert Element(name + [';'] + params) == Trim(start);
    TrimStartIdempotent(name);
  }

  // ---------------------------------------------------------------------
  // Responses

  /** A response body: its length when known, and its bytes when they are
      held in one slice. */
  datatype Body = Body(len: Option<nat>, data: Option<Bytes>)

  datatype Response = Response(body: Option<Body>, headers: map<string, string>)

  /** The middleware's verdict on a response: pass it on, or fail with an
      encoder error. */
  datatype Outcome = ContinueResponse(response: Response) | Throw

  /** A compressor: the coded bytes for a coding, level and input, or
      nothing when the encoder fails. */
  type Compressor = (Coding, nat, Bytes) -> Option<Bytes>

  /** A body worth compressing: its length is known and not below the
      plain-text limit. */
  predicate Eligible(p: Parser, b: Body)
  {
    b.len.Some? && b.len.value >= p.minPlainLimit
  }

  /** The response after a successful encode: the coded body, and headers
      naming the coding and the coded length. */
  function Encoded(resp: Response, c: Coding, out: Bytes): (r: Response)
    ensures r.body == Some(Body(Some(|out|), Some(out)))
    ensures CONTENT_ENCODING in r.headers && r.headers[CONTENT_ENCODING] == CodingName(c)
    ensures CONTENT_LENGTH in r.headers && r.headers[CONTENT_LENGTH] == NatToDecimal(|out|)
    ensures forall h :: h != CONTENT_ENCODING && h != CONTENT_LENGTH ==>
              (h in r.headers <==> h in resp.headers)
              && (h in resp.headers ==> r.headers[h] == resp.headers[h])
  {
    Response(Some(Body(Some(|out|), Some(out))),
             resp.headers[CONTENT_ENCODING := CodingName(c)][CONTENT_LENGTH := NatToDecimal(|out|)])
  }

  /** One arm of the coding match: skip a small or unsized body, compress
      a sliced one, fail when the encoder does. */
  function EncodeWith(p: Parser, c: Coding, resp: Response, compress: Compressor): (r: Outcome)
    requires resp.body.Some?
    ensures r.ContinueResponse? ==> r.response.body.Some?
  {
    var b := resp.body.value;
    if !Eligible(p, b) then ContinueResponse(resp)
    else if b.data.None? then ContinueResponse(resp)
    else
      match compress(c, p.level, b.data.value)
      case None => Throw
      case Some(out) => ContinueResponse(Encoded(resp, c, out))
  }

  /** The scan over the listed codings: unrecognised tokens are skipped and
      the first recognised one ends the scan, whether or not it encoded. */
  function Negotiate(p: Parser, tokens: seq<string>, resp: Response, compress: Compressor): (r: Outcome)
    requires resp.body.Some?
    ensures r.ContinueResponse? ==> r.response.body.Some?
  {
    if |tokens| == 0 then ContinueResponse(resp)
    else
      match Recognise(tokens[0])
      case None => Negotiate(p, tokens[1..], resp, compress)
      case Some(c) => EncodeWith(p, c, resp, compress)
  }

  /** The scan does exactly what the first recognised token asks for. */
  lemma {:induction false} NegotiateUsesFirstRecognised(p: Parser, tokens: seq<string>, resp: Response, compress: Compressor)
    requires resp.body.Some?
    ensures Negotiate(p, tokens, resp, compress) ==
              (match Chosen(tokens)
               case None => ContinueResponse(resp)
               case Some(c) => EncodeWith(p, c, resp, compress))
    decreases |tokens|
  {
    if |tokens| > 0 && Recognise(tokens[0]).None? {
      NegotiateUsesFirstRecognised(p, tokens[1..], resp, compress);
    }
  }

  /** Tokens after the first recognised one are never considered. */
  lemma {:induction false} LaterTokensIgnored(p: Parser, tokens: seq<string>, later: seq<string>,
                                              resp: Response, compress: Compressor)
    requires resp.body.Some? && Chosen(tokens).Some?
    ensures Negotiate(p, tokens + later, resp, compress) == Negotiate(p, tokens, resp, compress)
    decreases |tokens|
  {
    assert (tokens + later)[0] == tokens[0];
    if Recognise(tokens[0]).None? {
      assert (tokens + later)[1..] == tokens[1..] + later;
      LaterTokensIgnored(p, tokens[1..], later, resp, compress);
    }
  }

  /** Adds a Content-Length when none is present: the body length, or "0"
      when it is unknown. An existing value is never replaced. */
  function DefaultLength(resp: Response): (r: Response)
    requires resp.body.Some?
    ensures r.body == resp.body
    ensures CONTENT_LENGTH in r.headers
    ensures CONTENT_LENGTH in resp.headers ==> r == resp
    ensures CONTENT_LENGTH !in resp.headers && resp.body.value.len.Some? ==>
              r.headers[CONTENT_LENGTH] == NatToDecimal(resp.body.value.len.value)
    ensures CONTENT_LENGTH !in resp.headers && resp.body.value.len.None? ==> r.headers[CONTENT_LENGTH] == "0"
    ensures forall h :: h != CONTENT_LENGTH ==>
              (h in r.headers <==> h in resp.headers)
              && (h in resp.headers ==> r.headers[h] == resp.headers[h])
  {
    if CONTENT_LENGTH in resp.headers then resp
    else
      match resp.body.value.len
      case Some(n) => resp.(headers := resp.headers[CONTENT_LENGTH := NatToDecimal(n)])
      case None => resp.(headers := resp.headers[CONTENT_LENGTH := "0"])
  }

  /** The response half of the middleware. */
  function Respond(p: Parser, acceptEncoding: Option<string>, resp: Response, compress: Compressor): (r: Outcome)
    ensures resp.body.None? ==> r == ContinueResponse(resp)
    ensures resp.body.Some? && r.ContinueResponse? ==> CONTENT_LENGTH in r.response.headers
  {
    if resp.body.None? then ContinueResponse(resp)
    else
      var negotiated :=
        match acceptEncoding
        case None => ContinueResponse(resp)
        case Some(h) => Negotiate(p, Tokens(h), resp, compress);
      match negotiated
      case Throw => Throw
      case ContinueResponse(r) => ContinueResponse(DefaultLength(r))
  }

  /** The coding the response half settles on for a header value. */
  function ChosenFor(acceptEncoding: Option<string>): Option<Coding>
  {
    match acceptEncoding
    case None => None
    case Some(h) => Chosen(Tokens(h))
  }

  /** The whole response half in one statement. A body-less response passes
      unchanged. Otherwise the coding is the first recognised token; when
      there is none, or the body is unsized, too small or not sliced, the
      body is left alone and only the Content-Length default applies; when
      the encoder fails the middleware throws; when it succeeds the response
      is the encoded one, whose Content-Length the default leaves alone. */
  lemma RespondSpec(p: Parser, acceptEncoding: Option<string>, resp: Response, compress: Compressor)
    requires resp.body.Some?
    ensures var r := Respond(p, acceptEncoding, resp, compress);
            var c := ChosenFor(acceptEncoding);
            var b := resp.body.value;
            if c.None? || !Eligible(p, b) || b.data.None? then
              r == ContinueResponse(DefaultLength(resp))
            else
              match compress(c.value, p.level, b.data.value)
              case None => r == Throw
              case Some(out) => r == ContinueResponse(Encoded(resp, c.value, out))
  {
    var c := ChosenFor(acceptEncoding);
    var b := resp.body.value;
    if acceptEncoding.Some? {
      NegotiateUsesFirstRecognised(p, Tokens(acceptEncoding.value), resp, compress);
    }
    if c.Some? && Eligible(p, b) && b.data.Some? {
      match compress(c.value, p.level, b.data.value)
      case None =>
      case Some(out) =>
        var e := Encoded(resp, c.value, out);
        assert DefaultLength(e) == e;
    }
  }

  /** No coding is applied to a body whose length is unknown or below the
      limit: the body and its Content-Encoding stay as they were. */
  lemma SmallBodiesStayPlain(p: Parser, acceptEncoding: Option<string>, resp: Response, compress: Compressor)
    requires resp.body.Some? && !Eligible(p, resp.body.value)
    ensures Respond(p, acceptEncoding, resp, compress) == ContinueResponse(DefaultLength(resp))
  {
    RespondSpec(p, acceptEncoding, resp, compress);
  }

  // ---------------------------------------------------------------------
  // Requests

  /** What the MIME parser reports of a Content-Type header: lower-case
      type and subtype, and the charset parameter if there is one. */
  datatype Mime = Mime(typ: string, subtype: string, charset: Option<string>)

  /** A parameter table value. */
  datatype Param = Str(text: string) | Bin(bytes: Bytes)

  /** The decoders the request half relies on: form-urlencoded pairs, JSON
      re-serialised (nothing when the body is not JSON), and lossy UTF-8
      text. */
  datatype Decoders = Decoders(
    form: Bytes -> seq<(string, string)>,
    json: Bytes -> Option<string>,
    lossy: Bytes -> string)

  /** The middleware's verdict on a request; the parameter table is
      returned either way because query pairs are stored before the
      charset is checked. */
  datatype RequestOutcome =
    | Break(status: nat, params: map<string, Param>)
    | ContinueRequest(params: map<string, Param>)

  /** `i` is the last position of key `k` in `pairs`. */
  predicate LastAt<V>(pairs: seq<(string, V)>, k: string, i: int)
  {
    0 <= i < |pairs| && pairs[i].0 == k && forall j :: i < j < |pairs| ==> pairs[j].0 != k
  }

  /** Inserts the pairs in order, as repeated `HashMap::insert` does: the
      last value given for a key wins and keys not mentioned keep their
      values. */
  function InsertAll(m: map<string, Param>, pairs: seq<(string, Param)>): (r: map<string, Param>)
    ensures forall k :: k in r <==> k in m || exists i :: 0 <= i < |pairs| && pairs[i].0 == k
    ensures forall k, i :: LastAt(pairs, k, i) ==> k in r && r[k] == pairs[i].1
    ensures forall k :: k in m && (forall i :: 0 <= i < |pairs| ==> pairs[i].0 != k) ==> r[k] == m[k]
    decreases |pairs|
  {
    if |pairs| == 0 then m
    else
      var r := InsertAll(m[pairs[0].0 := pairs[0].1], pairs[1..]);
      assert forall k, i :: LastAt(pairs, k, i) && i > 0 ==> LastAt(pairs[1..], k, i - 1);
      r
  }

  /** Text pairs as parameter pairs. */
  function StrPairs(pairs: seq<(string, string)>): (ps: seq<(string, Param)>)
    ensures |ps| == |pairs|
    ensures forall i :: 0 <= i < |pairs| ==> ps[i] == (pairs[i].0, Str(pairs[i].1))
  {
    if |pairs| == 0 then [] else [(pairs[0].0, Str(pairs[0].1))] + StrPairs(pairs[1..])
  }

  /** A charset other than UTF-8 (compared without regard to ASCII case) is
      refused. */
  predicate RejectedCharset(mime: Mime)
  {
    mime.charset.Some? && !EqualsIgnoreAsciiCase(mime.charset.value, UTF_8)
  }

  /** The parameters a body contributes for its media type. */
  function BodyParams(mime: Mime, body: Option<Bytes>, dec: Decoders): (ps: seq<(string, Param)>)
    ensures body.None? ==> ps == []
    ensures body.Some? && mime.typ == "application" && mime.subtype == "x-www-form-urlencoded" ==>
              ps == StrPairs(dec.form(body.value))
    ensures body.Some? && mime.typ == "application" && mime.subtype == "json" ==>
              ps == (if dec.json(body.value).Some? then [("", Str(dec.json(body.value).value))] else [])
    ensures body.Some? && mime.typ == "application" && mime.subtype == "octet-stream" ==>
              ps == [("", Bin(body.value))]
    ensures body.Some? && mime.typ == "text" ==> ps == [("", Str(dec.lossy(body.value)))]
    ensures mime.typ != "application" && mime.typ != "text" ==> ps == []
    ensures (mime.typ == "application" && mime.subtype != "x-www-form-urlencoded" && mime.subtype != "json"
             && mime.subtype != "octet-stream") ==> ps == []
    ensures forall i :: 0 <= i < |ps| && mime.subtype != "x-www-form-urlencoded" ==> ps[i].0 == ""
  {
    match body
    case None => []
    case Some(bytes) =>
      if mime.typ == "application" && mime.subtype == "x-www-form-urlencoded" then StrPairs(dec.form(bytes))
      else if mime.typ == "application" && mime.subtype == "json" then
        match dec.json(bytes)
        case Some(text) => [("", Str(text))]
        case None => []
      else if mime.typ == "application" && mime.subtype == "octet-stream" then [("", Bin(bytes))]
      else if mime.typ == "text" then [("", Str(dec.lossy(bytes)))]
      else []
  }

  /** The request half of the middleware: query pairs first, then either a
      415 for a foreign charset or the body's parameters. */
  function Request(params: map<string, Param>, query: seq<(string, string)>, contentType: Option<Mime>,
                   body: Option<Bytes>, dec: Decoders): (r: RequestOutcome)
    ensures r.Break? <==> contentType.Some? && RejectedCharset(contentType.value)
    ensures r.Break? ==> r.status == UNSUPPORTED_MEDIA_TYPE && r.params == InsertAll(params, StrPairs(query))
    ensures contentType.None? ==> r == ContinueRequest(InsertAll(params, StrPairs(query)))
    ensures forall i :: 0 <= i < |query| ==> query[i].0 in r.params
    ensures contentType.Some? && !RejectedCharset(contentType.value) ==>
              r == ContinueRequest(InsertAll(InsertAll(params, StrPairs(query)), BodyParams(contentType.value, body, dec)))
  {
    var withQuery := InsertAll(params, StrPairs(query));
    match contentType
    case None => ContinueRequest(withQuery)
    case Some(mime) =>
      if RejectedCharset(mime) then Break(UNSUPPORTED_MEDIA_TYPE, withQuery)
      else ContinueRequest(InsertAll(withQuery, BodyParams(mime, body, dec)))
  }

  /** The charset check happens before the body is read: a refused request
      comes out the same whatever its body and decoders. */
  lemma RejectionIgnoresBody(params: map<string, Param>, query: seq<(string, string)>, mime: Mime,
                             b1: Option<Bytes>, b2: Option<Bytes>, d1: Decoders, d2: Decoders)
    requires RejectedCharset(mime)
    ensures Request(params, query, Some(mime), b1, d1) == Request(params, query, Some(mime), b2, d2)
  {
  }

  /** A valid JSON, octet-stream or text body is stored whole under the
      empty key, replacing any query value stored there. */
  lemma WholeBodyUnderEmptyKey(params: map<string, Param>, query: seq<(string, string)>, mime: Mime,
                               body: Bytes, dec: Decoders)
    requires !RejectedCharset(mime)
    ensures var r := Request(params, query, Some(mime), Some(body), dec);
            && (mime.typ == "application" && mime.subtype == "json" && dec.json(body).Some? ==>
                  "" in r.params && r.params[""] == Str(dec.json(body).value))
            && (mime.typ == "application" && mime.subtype == "octet-stream" ==>
                  "" in r.params && r.params[""] == Bin(body))
            && (mime.typ == "text" ==> "" in r.params && r.params[""] == Str(dec.lossy(body)))
  {
    var ps := BodyParams(mime, Some(body), dec);
    if mime.typ == "application" && mime.subtype == "json" && dec.json(body).Some? {
      assert LastAt(ps, "", 0);
    } else if mime.typ == "application" && mime.subtype == "octet-stream" {
      assert LastAt(ps, "", 0);
    } else if mime.typ == "text" {
      assert LastAt(ps, "", 0);
    }
  }

  /** Invalid JSON adds nothing to the table beyond the query pairs. */
  lemma InvalidJsonAddsNothing(params: map<string, Param>, query: seq<(string, string)>, mime: Mime,
                               body: Bytes, dec: Decoders)
    requires mime.typ == "application" && mime.subtype == "json" && !RejectedCharset(mime)
    requires dec.json(body).None?
    ensures Request(params, query, Some(mime), Some(body), dec) == ContinueRequest(InsertAll(params, StrPairs(query)))
  {
  }

  /** A form body's pairs land in the table, the last value for a repeated
      name winning over query pairs and earlier form pairs alike. */
  lemma FormPairsInserted(params: map<string, Param>, query: seq<(string, string)>, mime: Mime,
                          body: Bytes, dec: Decoders, k: string, i: int)
    requires mime.typ == "application" && mime.subtype == "x-www-form-urlencoded" && !RejectedCharset(mime)
    requires LastAt(dec.form(body), k, i)
    ensures var r := Request(params, query, Some(mime), Some(body), dec);
            r.ContinueRequest? && k in r.params && r.params[k] == Str(dec.form(body)[i].1)
  {
    assert LastAt(StrPairs(dec.form(body)), k, i);
  }
}

=== FILE: prelude.dfy ===
/** Shared vocabulary: optional values, fallible results and the 16-bit
    integers that MQTT uses for packet identifiers (section 2.3.1 of
    MQTT 3.1.1). */
module Prelude {

  datatype Option<+T> = None | Some(value: T)

  /** The counterpart of Rust's `Result`: `Ok` carries the value, `Err` the
      error that the caller sees. */
  datatype Result<+T, +E> = Ok(value: T) | Err(error: E)

  type byte = x: int | 0 <= x < 0x100
  type Bytes = seq<byte>

  const U16_MODULUS: nat := 0x1_0000
  const U16_MAX: nat := 0xFFFF

  /** A Rust `u16`. */
  type U16 = x: nat | x < U16_MODULUS

  /** Truncation of an unbounded integer to 16 bits, as wrapping `u16`
      arithmetic does. */
  function Wrap16(x: int): (r: U16)
    ensures 0 <= x < U16_MODULUS ==> r == x
    ensures (r - x) % U16_MODULUS == 0
  {
    x % U16_MODULUS
  }

  /** The increment the client uses for its request counters: one more, or
      back to zero after the largest value. */
  function Next16(x: U16): (r: U16)
    ensures r == Wrap16(x + 1)
    ensures x < U16_MAX ==> r == x + 1
    ensures r == 0 <==> x == U16_MAX
  {
    if x < U16_MAX then x + 1 else 0
  }
}

=== FILE: text.dfy ===
/** Text utilities shared by the topic parser and the HTTP header handling:
    splitting on a separator (Rust's `str::split`), trimming ASCII white
    space (`str::trim` on header text), ASCII case folding and decimal
    rendering of lengths (`usize::to_string`). */
module Text {

  /** Position of the first occurrence of `c` in `s`. */
  function IndexOf(s: string, c: char): (i: nat)
    requires c in s
    ensures i < |s| && s[i] == c
    ensures c !in s[..i]
  {
    if s[0] == c then 0
    else
      var j := IndexOf(s[1..], c);
      assert s[..j + 1] == [s[0]] + s[1..][..j];
      j + 1
  }

  /** The separator first occurs right after a separator-free prefix. */
  lemma {:induction false} IndexOfAfterPrefix(a: string, c: char, b: string)
    requires c !in a
    ensures c in a + [c] + b
    ensures IndexOf(a + [c] + b, c) == |a|
  {
    var s := a + [c] + b;
    assert s[|a|] == c;
    if |a| > 0 {
      assert s[1..] == a[1..] + [c] + b;
      IndexOfAfterPrefix(a[1..], c, b);
    }
  }

  /** Parts joined back together with the separator between them. */
  function Join(parts: seq<string>, sep: char): string
  {
    if |parts| == 0 then ""
    else if |parts| == 1 then parts[0]
    else parts[0] + [sep] + Join(parts[1..], sep)
  }

  /** Rust's `s.split(sep)`: at least one part, no part contains the
      separator, and joining the parts gives back the input. */
  function Split(s: string, sep: char): (parts: seq<string>)
    ensures |parts| >= 1
    ensures forall i :: 0 <= i < |parts| ==> sep !in parts[i]
    ensures Join(parts, sep) == s
    decreases |s|
  {
    if sep !in s then [s]
    else
      var i := IndexOf(s, sep);
      var rest := Split(s[i + 1..], sep);
      assert s == s[..i] + [sep] + s[i + 1..];
      assert ([s[..i]] + rest)[1..] == rest;
      [s[..i]] + rest
  }

  /** The first part of a split is everything before the first
      separator. */
  lemma SplitHead(a: string, sep: char, b: string)
    requires sep !in a
    ensures Split(a + [sep] + b, sep)[0] == a
  {
    var s := a + [sep] + b;
    IndexOfAfterPrefix(a, sep, b);
    assert s[..|a|] == a;
  }

  /** Splitting is also a left inverse of joining: separator-free parts
      come back unchanged. */
  lemma {:induction false} SplitJoin(parts: seq<string>, sep: char)
    requires |parts| >= 1
    requires forall i :: 0 <= i < |parts| ==> sep !in parts[i]
    ensures Split(Join(parts, sep), sep) == parts
    decreases |parts|
  {
    if |parts| > 1 {
      var head, rest := parts[0], parts[1..];
      var tail := Join(rest, sep);
      var s := head + [sep] + tail;
      assert Join(parts, sep) == s;
      IndexOfAfterPrefix(head, sep, tail);
      assert s[..|head|] == head;
      assert s[|head| + 1..] == tail;
      assert forall i :: 0 <= i < |rest| ==> sep !in rest[i] by {
        forall i | 0 <= i < |rest| ensures sep !in rest[i] {
          assert rest[i] == parts[i + 1];
        }
      }
      SplitJoin(rest, sep);
      assert Split(s, sep) == [head] + Split(tail, sep);
      assert parts == [head] + rest;
    }
  }

  /** ASCII white space as Rust's `char::is_whitespace` sees it: tab, line
      feed, vertical tab, form feed, carriage return and space. */
  predicate IsSpace(c: char)
  {
    c == ' ' || 9 <= c as int <= 13
  }

  /** Rust's `str::trim_start`, restricted to ASCII white space. */
  function TrimStart(s: string): (r: string)
    ensures |r| <= |s| && r == s[|s| - |r|..]
    ensures forall i :: 0 <= i < |s| - |r| ==> IsSpace(s[i])
    ensures |r| == 0 || !IsSpace(r[0])
  {
    if |s| > 0 && IsSpace(s[0]) then TrimStart(s[1..]) else s
  }

  /** Rust's `str::trim_end`, restricted to ASCII white space. */
  function TrimEnd(s: string): (r: string)
    ensures |r| <= |s| && r == s[..|r|]
    ensures forall i :: |r| <= i < |s| ==> IsSpace(s[i])
    ensures |r| == 0 || !IsSpace(r[|r| - 1])
  {
    if |s| > 0 && IsSpace(s[|s| - 1]) then TrimEnd(s[..|s| - 1]) else s
  }

  /** Rust's `str::trim`: the slice of `s` left after cutting white space
      from both ends (`TrimIsSlice`). */
  function Trim(s: string): (r: string)
    ensures |r| <= |s|
    ensures |r| == 0 || (!IsSpace(r[0]) && !IsSpace(r[|r| - 1]))
    ensures (|s| == 0 || (!IsSpace(s[0]) && !IsSpace(s[|s| - 1]))) ==> r == s
  {
    TrimEnd(TrimStart(s))
  }

  /** The trimmed text is a slice of the input, and everything cut off on
      either side is white space. */
  lemma TrimIsSlice(s: string)
    ensures var r := Trim(s);
            exists i :: 0 <= i <= |s| - |r| && r == s[i..][..|r|]
                        && (forall j :: 0 <= j < i ==> IsSpace(s[j]))
                        && (forall j :: i + |r| <= j < |s| ==> IsSpace(s[j]))
  {
    var a := TrimStart(s);
    var t := TrimEnd(a);
    var i := |s| - |a|;
    assert a == s[i..];
    assert t == a[..|t|];
    forall j | i + |t| <= j < |s| ensures IsSpace(s[j]) {
      assert s[j] == a[j - i];
    }
    assert 0 <= i <= |s| - |t| && t == s[i..][..|t|];
  }

  /** Trimming twice trims nothing more. */
  lemma TrimIdempotent(s: string)
    ensures Trim(Trim(s)) == Trim(s)
  {
    var t := Trim(s);
    assert TrimStart(t) == t;
    assert TrimEnd(t) == t;
  }

  /** Trimming the start twice trims nothing more. */
  lemma {:induction false} TrimStartIdempotent(s: string)
    ensures TrimStart(TrimStart(s)) == TrimStart(s)
  {
  }

  /** Trimming the start of a text stops at its first `;` at the latest. */
  lemma {:induction false} TrimStartBeforeSemicolon(a: string, b: string)
    ensures TrimStart(a + [';'] + b) == TrimStart(a) + [';'] + b
    decreases |a|
  {
    if |a| > 0 && IsSpace(a[0]) {
      assert (a + [';'] + b)[1..] == a[1..] + [';'] + b;
      TrimStartBeforeSemicolon(a[1..], b);
    } else if |a| == 0 {
      assert !IsSpace((a + [';'] + b)[0]);
    } else {
      assert (a + [';'] + b)[0] == a[0];
    }
  }

  /** Trimming the end of a text stops at its last `;` at the latest. */
  lemma {:induction false} TrimEndAfterSemicolon(a: string, b: string)
    ensures TrimEnd(a + [';'] + b) == a + [';'] + TrimEnd(b)
    decreases |b|
  {
    var s := a + [';'] + b;
    if |b| > 0 && IsSpace(b[|b| - 1]) {
      assert s[..|s| - 1] == a + [';'] + b[..|b| - 1];
      TrimEndAfterSemicolon(a, b[..|b| - 1]);
    } else if |b| == 0 {
      assert s[|s| - 1] == ';';
    } else {
      assert s[|s| - 1] == b[|b| - 1];
    }
  }

  /** Trimming never introduces a character. */
  lemma TrimKeepsAbsence(s: string, c: char)
    requires c !in s
    ensures c !in TrimStart(s) && c !in Trim(s)
  {
    var r := TrimStart(s);
    SliceKeepsAbsence(s, c, |s| - |r|, |s|);
    assert r == s[|s| - |r|..|s|];
    var t := TrimEnd(r);
    SliceKeepsAbsence(r, c, 0, |t|);
    assert t == r[0..|t|];
  }

  /** A slice holds only characters of the text it is cut from. */
  lemma SliceKeepsAbsence(s: string, c: char, i: nat, j: nat)
    requires c !in s && i <= j <= |s|
    ensures c !in s[i..j]
  {
    forall k | 0 <= k < j - i ensures s[i..j][k] != c {
      assert s[i..j][k] == s[i + k];
    }
  }

  function LowerAscii(c: char): char
  {
    if 'A' <= c <= 'Z' then (c as int + 32) as char else c
  }

  /** Rust's `str::eq_ignore_ascii_case`. */
  predicate EqualsIgnoreAsciiCase(a: string, b: string)
  {
    |a| == |b| && forall i :: 0 <= i < |a| ==> LowerAscii(a[i]) == LowerAscii(b[i])
  }

  predicate IsDigit(c: char)
  {
    '0' <= c <= '9'
  }

  function DigitChar(d: nat): (c: char)
    requires d < 10
    ensures IsDigit(c)
  {
    (('0' as int) + d) as char
  }

  /** The number a string of decimal digits denotes. */
  function DecimalValue(s: string): nat
    requires forall i :: 0 <= i < |s| ==> IsDigit(s[i])
  {
    if |s| == 0 then 0
    else
      var last := s[|s| - 1];
      assert IsDigit(last);
      10 * DecimalValue(s[..|s| - 1]) + (last as int - '0' as int)
  }

  /** Rust's `usize::to_string`: non-empty digits without a leading zero
      that denote `n` again. */
  function NatToDecimal(n: nat): (s: string)
    ensures |s| >= 1
    ensures forall i :: 0 <= i < |s| ==> IsDigit(s[i])
    ensures s[0] == '0' ==> n == 0
    ensures DecimalValue(s) == n
  {
    if n < 10 then [DigitChar(n)]
    else
      var prefix := NatToDecimal(n / 10);
      var s := prefix + [DigitChar(n % 10)];
      assert s[..|s| - 1] == prefix;
      s
  }
}

=== FILE: topic.dfy ===
/** Topic names and topic filters (section 4.7 of MQTT 3.1.1).

    The client asks a topic-path parser three questions: does a name parse
    (`TopicPath::from_str`), does the parsed path contain wildcards (its
    `wildcards` flag), and does a filter match a published topic
    (`is_match`). This module answers them with the rules of the standard:
    levels are separated by `/`, `+` stands for exactly one level, `#` for
    all remaining levels (including none) and may only be the last level,
    and a level may not mix a wildcard character with other text. */
module Topic {
  import opened Prelude
  import opened Text

  const SEPARATOR: char := '/'

  datatype Level = Name(text: string) | SingleLevel | MultiLevel

  datatype Filter = Filter(levels: seq<Level>)

  /** The text a level is written as. */
  function LevelText(l: Level): string
  {
    match l
    case Name(t) => t
    case SingleLevel => "+"
    case MultiLevel => "#"
  }

  function Texts(ls: seq<Level>): (ts: seq<string>)
    ensures |ts| == |ls|
    ensures forall i :: 0 <= i < |ls| ==> ts[i] == LevelText(ls[i])
  {
    if |ls| == 0 then [] else [LevelText(ls[0])] + Texts(ls[1..])
  }

  /** A level name may hold any text except the separator and the two
      wildcard characters. */
  predicate PlainText(t: string)
  {
    SEPARATOR !in t && '+' !in t && '#' !in t
  }

  predicate WellFormedLevel(l: Level)
  {
    l.Name? ==> PlainText(l.text)
  }

  /** The filters the parser can produce: at least one level, `#` only
      last, no stray wildcard or separator characters inside a level, and
      not the empty string. */
  predicate WellFormed(f: Filter)
  {
    && |f.levels| >= 1
    && (forall i :: 0 <= i < |f.levels| ==> WellFormedLevel(f.levels[i]))
    && (forall i :: 0 <= i < |f.levels| - 1 ==> !f.levels[i].MultiLevel?)
    && f.levels != [Name("")]
  }

  function Render(f: Filter): string
  {
    Join(Texts(f.levels), SEPARATOR)
  }

  function ParseLevel(t: string): (r: Option<Level>)
    ensures r.Some? ==> LevelText(r.value) == t
    ensures r.Some? && SEPARATOR !in t ==> WellFormedLevel(r.value)
  {
    if t == "+" then Some(SingleLevel)
    else if t == "#" then Some(MultiLevel)
    else if '+' in t || '#' in t then None
    else Some(Name(t))
  }

  /** Every level must parse; one bad level rejects the whole path. */
  function ParseLevels(ts: seq<string>): (r: Option<seq<Level>>)
    ensures r.Some? <==> forall i :: 0 <= i < |ts| ==> ParseLevel(ts[i]).Some?
    ensures r.Some? ==> |r.value| == |ts|
    ensures r.Some? ==> forall i :: 0 <= i < |ts| ==> Some(r.value[i]) == ParseLevel(ts[i])
  {
    if |ts| == 0 then Some([])
    else
      match ParseLevel(ts[0])
      case None => None
      case Some(l) =>
        match ParseLevels(ts[1..])
        case None => None
        case Some(rest) => Some([l] + rest)
  }

  /** True when some level before the last is `#`. */
  predicate MultiLevelNotLast(ls: seq<Level>)
  {
    exists i :: 0 <= i < |ls| - 1 && ls[i].MultiLevel?
  }

  /** `TopicPath::from_str`: parsing succeeds exactly on the rendering of a
      well-formed filter, and the filter it yields renders back to the
      input. */
  function Parse(name: string): (r: Option<Filter>)
    ensures r.Some? ==> WellFormed(r.value) && Render(r.value) == name
  {
    if name == "" then None
    else
      var parts := Split(name, SEPARATOR);
      match ParseLevels(parts)
      case None => None
      case Some(ls) =>
        if MultiLevelNotLast(ls) then None
        else
          assert Texts(ls) == parts;
          Some(Filter(ls))
  }

  /** A well-formed level written out parses back to itself. */
  lemma ParseLevelText(l: Level)
    requires WellFormedLevel(l)
    ensures ParseLevel(LevelText(l)) == Some(l)
  {
    match l
    case Name(t) =>
      assert t != "+" by { assert "+"[0] == '+'; }
      assert t != "#" by { assert "#"[0] == '#'; }
    case SingleLevel =>
    case MultiLevel =>
  }

  /** Levels written out parse back to themselves, one by one. */
  lemma {:induction false} ParseLevelsOfTexts(ls: seq<Level>)
    requires forall i :: 0 <= i < |ls| ==> WellFormedLevel(ls[i])
    ensures ParseLevels(Texts(ls)) == Some(ls)
    decreases |ls|
  {
    if |ls| > 0 {
      var ts := Texts(ls);
      ParseLevelText(ls[0]);
      assert ParseLevel(ts[0]) == Some(ls[0]);
      assert ts[1..] == Texts(ls[1..]);
      ParseLevelsOfTexts(ls[1..]);
      assert ParseLevels(ts) == Some([ls[0]] + ls[1..]);
      assert ls == [ls[0]] + ls[1..];
    }
  }

  /** A well-formed filter never renders as the empty string. */
  lemma RenderNonEmpty(f: Filter)
    requires WellFormed(f)
    ensures Render(f) != ""
  {
    var ts := Texts(f.levels);
    if |ts| == 1 {
      assert f.levels == [f.levels[0]];
      assert Render(f) == LevelText(f.levels[0]);
    } else {
      assert Render(f) == ts[0] + [SEPARATOR] + Join(ts[1..], SEPARATOR);
    }
  }

  /** A well-formed filter written out parses back to itself. */
  lemma ParseRender(f: Filter)
    requires WellFormed(f)
    ensures Parse(Render(f)) == Some(f)
  {
    var ts := Texts(f.levels);
    forall i | 0 <= i < |ts|
      ensures SEPARATOR !in ts[i]
    {
      assert WellFormedLevel(f.levels[i]);
    }
    SplitJoin(ts, SEPARATOR);
    ParseLevelsOfTexts(f.levels);
    RenderNonEmpty(f);
    assert !MultiLevelNotLast(f.levels);
  }

  /** The `wildcards` flag of a parsed path. */
  predicate HasWildcards(f: Filter)
  {
    exists i :: 0 <= i < |f.levels| && !f.levels[i].Name?
  }

  /** The levels of a published topic name. */
  function Levels(topic: string): (ls: seq<string>)
    ensures |ls| >= 1 && Join(ls, SEPARATOR) == topic
  {
    Split(topic, SEPARATOR)
  }

  /** Matching of filter levels against topic levels, level by level. */
  predicate MatchLevels(ls: seq<Level>, ts: seq<string>)
  {
    if |ls| == 0 then |ts| == 0
    else
      match ls[0]
      case MultiLevel => true
      case SingleLevel => |ts| > 0 && MatchLevels(ls[1..], ts[1..])
      case Name(n) => |ts| > 0 && ts[0] == n && MatchLevels(ls[1..], ts[1..])
  }

  /** `is_match`: does the filter match the published topic name? */
  predicate Matches(f: Filter, topic: string)
  {
    MatchLevels(f.levels, Levels(topic))
  }

  /** One filter level admits one topic level. */
  predicate Admits(l: Level, t: string)
  {
    l.SingleLevel? || l == Name(t)
  }

  /** Section 4.7.1 stated directly: without `#` the topic has exactly as
      many levels as the filter and each is admitted; with a final `#` the
      topic has at least the levels before it, each admitted. */
  ghost predicate MatchSpec(ls: seq<Level>, ts: seq<string>)
  {
    if |ls| > 0 && ls[|ls| - 1].MultiLevel? then
      && |ts| >= |ls| - 1
      && forall i :: 0 <= i < |ls| - 1 ==> Admits(ls[i], ts[i])
    else
      && |ts| == |ls|
      && forall i :: 0 <= i < |ls| ==> Admits(ls[i], ts[i])
  }

  /** The level-by-level matcher agrees with the standard's description on
      every filter whose `#` (if any) is last. */
  lemma {:induction false} MatchLevelsIsSpec(ls: seq<Level>, ts: seq<string>)
    requires forall i :: 0 <= i < |ls| - 1 ==> !ls[i].MultiLevel?
    ensures MatchLevels(ls, ts) <==> MatchSpec(ls, ts)
    decreases |ls|
  {
    if |ls| > 0 && !ls[0].MultiLevel? && |ts| > 0 {
      MatchLevelsIsSpec(ls[1..], ts[1..]);
      if |ls| > 1 && ls[|ls| - 1].MultiLevel? {
        assert ls[1..][|ls| - 2].MultiLevel?;
        if MatchSpec(ls, ts) {
          forall i | 0 <= i < |ls| - 2
            ensures Admits(ls[1..][i], ts[1..][i])
          {
            assert Admits(ls[i + 1], ts[i + 1]);
          }
        }
        if MatchLevels(ls, ts) {
          forall i | 0 <= i < |ls| - 1
            ensures Admits(ls[i], ts[i])
          {
            if i > 0 {
              assert Admits(ls[1..][i - 1], ts[1..][i - 1]);
            }
          }
        }
      } else {
        if MatchSpec(ls, ts) {
          forall i | 0 <= i < |ls| - 1
            ensures Admits(ls[1..][i], ts[1..][i])
          {
            assert Admits(ls[i + 1], ts[i + 1]);
          }
        }
        if MatchLevels(ls, ts) {
          forall i | 0 <= i < |ls|
            ensures Admits(ls[i], ts[i])
          {
            if i > 0 {
              assert Admits(ls[1..][i - 1], ts[1..][i - 1]);
            }
          }
        }
      }
    } else if |ls| > 0 && !ls[0].MultiLevel? {
      assert !MatchLevels(ls, ts);
      assert !(|ls| == 1 && ls[0].MultiLevel?);
    }
  }

  /** Without wildcards, matching is equality of levels. */
  lemma {:induction false} PlainMatchIsEquality(ls: seq<Level>, ts: seq<string>)
    requires forall i :: 0 <= i < |ls| ==> ls[i].Name?
    ensures MatchLevels(ls, ts) <==> ts == Texts(ls)
    decreases |ls|
  {
    if |ls| > 0 && |ts| > 0 {
      PlainMatchIsEquality(ls[1..], ts[1..]);
      assert ts == [ts[0]] + ts[1..];
      assert Texts(ls) == [LevelText(ls[0])] + Texts(ls[1..]);
    }
  }

  /** A filter without wildcards parsed from `name` matches exactly the
      topic `name` itself: looking a topic up verbatim and matching it
      against a plain filter are the same test. */
  lemma PlainFilterMatchesOnlyItsName(name: string, topic: string)
    requires Parse(name).Some? && !HasWildcards(Parse(name).value)
    ensures Matches(Parse(name).value, topic) <==> topic == name
  {
    var f := Parse(name).value;
    PlainMatchIsEquality(f.levels, Levels(topic));
    SplitJoin(Texts(f.levels), SEPARATOR);
  }
}
